=== FILE: README.md ===
# Storefront decision logic, modelled in Dafny

This project models the decision logic of a server-rendered storefront that
has user accounts. The rest of that codebase is user interface and glue code.
The model covers five parts:

- the sign-in gate and session pipeline of the auth configuration: the
  credentials check, two-factor confirmation, JWT enrichment, session
  projection, redirect policy and the account-link event;
- the zod validation schemas;
- the `addProduct`, `getAllProducts`, `getProductById` and `Register` server
  actions;
- the list operations of the two product-creation forms and of the
  image-variant field;
- the escrow pre-checks and error formatting of the product card, and the
  one-shot email-verification form.

Everything is pure functions over immutable datatypes. The database is an
abstract `Store` made of maps and a sequence (module `Db`). Each server action
takes a store and returns its response together with the new store. Each
client handler takes a form state and returns the next one. The model leaves
these as uninterpreted functions, carried in `Externals.Env`:

- zod's `.email()` and `.url()` checks;
- JavaScript's `Number(...)`;
- `ObjectId.isValid`;
- bcrypt.

So every property holds whatever those functions do. Uploads, mail delivery
and remote calls are parameters that say how the call ended. Ids, timestamps
and tokens that the database, the clock or a random generator would produce
are parameters too.

Modules, one per source file or component: `Wrappers`, `Strings`
(startsWith, ASCII lower-casing, trim, join/split), `Externals`, `Db`, `Auth`,
`Schemas`, `ProductActions`, `RegisterAction`, `NewProductPage`,
`ProductForm`, `ImagesField`, `ProductCard`, `EmailVerification`.

Two behaviours of the code are worth knowing:

- Registration reports a failure only when sending the verification mail
  throws. If the SMTP transport's `verify()` fails, lib/mail.ts:51-56 logs the
  error and returns normally, so `Register` still answers "Verification email
  sent" (`RegisterAction.MailOutcome.TransportUnavailable`).
- The comment at auth.ts:92 states the intent of the redirect policy: allow
  relative and same-origin redirects. The code only tests a string prefix
  (see Findings).

## Model

| member | source | states |
|---|---|---|
| Auth.SignIn | auth.ts:32-53 | A provider other than credentials is always allowed and the store is untouched. A credentials sign-in is allowed iff the user exists, its email is verified, and, when two-factor is on, a confirmation row exists. A denial never changes the store. The only change ever made is removing that user's confirmation row, and it happens exactly when a two-factor user is allowed in. A user with two-factor off never loses a row. |
| Auth.TwoFactorConfirmationSingleUse | auth.ts:41-52 | A confirmation row admits one sign-in. The first attempt is allowed and deletes the row. A second attempt against the resulting store is denied. |
| Auth.Jwt | auth.ts:56-71 | A token with no subject, or with an unknown subject, is returned unchanged. Otherwise it carries the user's name, email, role and two-factor flag, plus whether an account is linked. `sub` and the other claims are untouched. |
| Auth.JwtIdempotent | auth.ts:56-71 | Running enrichment a second time against the same store changes nothing. |
| Auth.ProjectSession | auth.ts:74-88 | With no session user, nothing is written. `id` is set only when the token has a subject. `role` is set only when the token has a role. The four other fields are always copied, even when absent. |
| Auth.ProjectSessionIdempotent | auth.ts:74-88 | Projecting the same token twice gives the same session as projecting it once. |
| Auth.SessionReflectsStore | auth.ts:56-88 | After enrichment then projection, the session names the token's user with the store's role, name, email, two-factor flag and OAuth flag. |
| Auth.Redirect | auth.ts:91-98 | A path resolves to base + path. A URL that starts with the base URL is returned as is. Anything else goes to base + "/user". The result always starts with the base URL. |
| Auth.RedirectPrefixAdmitsForeignHost | auth.ts:94 | With base "https://x.test", the URL "https://x.test.evil.example/" is returned unchanged even though it is on another origin. |
| Auth.RedirectSameOrigin | auth.ts:91-98 | The corrected policy: every result is the base URL itself, or the base URL followed by a path, query or fragment. |
| Auth.RedirectPoliciesAgreeOnSameOrigin | auth.ts:91-98 | Whenever the original policy stays on the base origin, its answer equals the corrected policy's answer. |
| Auth.LinkAccount | auth.ts:22-27 | The update succeeds iff the user exists. It sets that user's `emailVerified` to the given time and changes no other user and no other table. |
| Auth.LinkedUserPassesVerification | auth.ts:22-38 | After an account link, a credentials sign-in by that user (with two-factor off) is allowed. |
| Schemas.PasswordPairIssues | schemas/index.ts:11-29 | The refinements pass iff the password and the new password are both given or both absent. A lone password is reported on `newPassword` with "New password is required!". A lone new password is reported on `password` with "Password is required!". |
| Schemas.SettingsIssues | schemas/index.ts:4-29 | Settings are accepted iff the role is ADMIN or USER, a given email is valid, each given password has at least 6 characters, and the two passwords are given together. The refinement issues are reported whenever the role is valid. |
| Schemas.SettingsNeedsNewPassword | schemas/index.ts:11-19 | A password without a new password is always reported on `newPassword`, and the opposite message is never reported. |
| Schemas.SettingsNeedsPassword | schemas/index.ts:20-29 | A new password without a password is always reported on `password`, and the opposite message is never reported. |
| Schemas.LoginIssues | schemas/index.ts:31-39 | Login is accepted iff the email is valid and the password is non-empty. Each failure comes with its own message. |
| Schemas.LoginCodeIrrelevant | schemas/index.ts:31-39 | The optional two-factor code has no effect on validation. |
| Schemas.RegisterIssues | schemas/index.ts:53-63 | Registration is accepted iff the email is valid, the password has at least 6 characters and the name is non-empty. A short password or an empty name is reported with its message. |
| Schemas.MatchesHexColor | schemas/index.ts:66 | The regex `^#([0-9a-fA-F]{3}){1,2}$` read group by group: "#" then one or two groups of three hex digits. Its meaning is stated by `Schemas.HexColorShape`. |
| Schemas.HexColorShape | schemas/index.ts:66 | The pattern `^#([0-9a-fA-F]{3}){1,2}$`, modelled group by group, accepts exactly "#" followed by 3 or 6 hex digits in either case. |
| Schemas.ImageIssues | schemas/index.ts:64-68 | An image is accepted iff its colour is non-empty, its code matches the hex pattern and its URL is valid. Every issue sits under `images[index]`. |
| Schemas.ElementIssues | schemas/index.ts:81 | The element issues are empty iff every image, checked at its own position, has no issue. |
| Schemas.PriceIssues | schemas/index.ts:74-77 | A price is accepted iff its numeric value is finite and at least 0. There is at most one price issue. |
| Schemas.PriceTextAndNumberAgree | schemas/index.ts:74-77 | A price given as text is judged the same as the number it parses to. |
| Schemas.ImagesIssues | schemas/index.ts:81-84 | The image list is accepted iff it has 1 to 5 images and each one is valid. An empty list is reported as "At least one image is required". A list of more than 5 is reported first as "You can upload up to 5 images". |
| Schemas.ProductIssues | schemas/index.ts:70-85 | A product is accepted iff the name is non-empty, the price is acceptable and the images are acceptable. |
| Schemas.ParseProduct | schemas/index.ts:70-85 | Parsing fails with exactly the schema's issues, or succeeds with the input's fields and `inStock` defaulted to true. |
| Schemas.ImageCountBounds | schemas/index.ts:81-84 | With 0 images or more than 5, parsing fails and the matching count message is among the issues, whatever else the input holds. |
| ProductActions.ProductRecord | actions/product.ts:28-39 | The written record has a non-negative numeric price equal to the input's value. A null or absent description, vendor, brand or category becomes "". Name, stock flag and images are kept. |
| ProductActions.AddProduct | actions/product.ts:11-42 | Invalid input returns the issue messages joined by ", " and writes nothing. Valid input appends exactly one product, with the defaults applied and the images in input order, and returns it. |
| ProductActions.AddProductWithoutImages | actions/product.ts:12-15 | With a valid name and price but no images, the answer is exactly "At least one image is required" and the store is unchanged. |
| ProductActions.AddProductRejectsBadPrice | actions/product.ts:12-15 | A negative or non-finite price is refused and nothing is written. |
| ProductActions.FindById | actions/product.ts:53-55 | The lookup returns a stored product with that id, and finds nothing only when no product has that id. |
| ProductActions.GetProductById | actions/product.ts:51-56 | An id that is not a valid ObjectId gives null, whatever the store holds. A valid id gives a stored product with that id whenever one exists. |
| ProductActions.AddThenGet | actions/product.ts:11-56 | A product just added can be fetched back by its id, with `inStock` defaulted. |
| ProductActions.InsertByCreatedAt | actions/product.ts:44-49 | Inserting into a newest-first list keeps it newest first and adds exactly that one product. |
| ProductActions.SortNewestFirst | actions/product.ts:44-49 | The result is a permutation of the input, ordered by `createdAt` descending. |
| ProductActions.GetAllProducts | actions/product.ts:44-49 | Every stored product is listed as often as it is stored, newest first. |
| RegisterAction.CreateUser | actions/register.ts:26-30 | Creating a user adds exactly one row under a fresh id and leaves every other row and table alone. |
| RegisterAction.IssueVerificationToken | actions/register.ts:32 | The new token becomes the one token for its email. Other emails' tokens are kept. |
| RegisterAction.Register | actions/register.ts:10-42 | Invalid fields give "Invalid fields!" and change nothing. A taken email gives "Email already in use!" and changes nothing. Otherwise exactly one user is added with the name, the email and the hashed password, and a token is issued for that email. The answer is "Failed to send verification email" iff sending threw, but the user stays either way. |
| RegisterAction.CreateUserPreservesWellFormed | actions/register.ts:20-30 | Adding a user whose email nobody has keeps rows under their own keys and keeps emails unique. |
| RegisterAction.IssueVerificationTokenPreservesWellFormed | actions/register.ts:32 | Replacing an email's token keeps every token under its own email. |
| RegisterAction.RegisterPreservesWellFormed | actions/register.ts:20-32 | Registration keeps the store well formed, so emails stay unique. |
| RegisterAction.RegisterSameEmailTwice | actions/register.ts:20-24 | A second registration of the same email is refused as a duplicate and leaves the store as the first one left it. |
| NewProductPage.GetBasicColorName | app/products/new/page.tsx:49-58 | The result is the name the five-entry table gives the lower-cased input ("#ff0000" Red, "#00ff00" Green, "#0000ff" Blue, "#000000" Black, "#ffffff" White), and "Custom" for any other input whose lower-cased form is not an inherited object property name ("constructor", "__proto__"). |
| NewProductPage.PickerColorIsNoInheritedKey | app/products/new/page.tsx:49-58 | No colour-picker value, lower-cased, is an inherited object property name, so the page's calls never reach the case the model does not follow. |
| NewProductPage.PickerColorMatchesHex | schemas/index.ts:66 | Every colour-picker value ("#" and six lower-case hex digits) matches the image schema's hex pattern. |
| NewProductPage.BasicColorNameIgnoresCase | app/products/new/page.tsx:57 | Lower-casing the input first does not change the name. |
| NewProductPage.HandleAddMore | app/products/new/page.tsx:60-73 | At 5 sections nothing changes. Below 5, exactly one blue section with id count + 1 is appended and everything else is kept. The count never goes above 5. |
| NewProductPage.WithoutId | app/products/new/page.tsx:80 | Exactly the sections with another id remain, and the list never grows. Without a matching section the list is unchanged. |
| NewProductPage.WithoutIdCounts | app/products/new/page.tsx:80 | Every copy of a section with the id is dropped, and every other section is kept as many times as it occurs. |
| NewProductPage.WithoutIdAppend | app/products/new/page.tsx:80 | The filter distributes over concatenation, so the kept sections stay in their original order. |
| NewProductPage.HandleRemoveSection | app/products/new/page.tsx:75-84 | With one section nothing changes. Otherwise the sections become the filter of the old ones: those with that id are gone, the rest are kept with their multiplicity and order. The images list is never touched. |
| NewProductPage.UpdateSection | app/products/new/page.tsx:86-90 | Sections with the id are patched, every other section is kept, and the length is preserved. |
| NewProductPage.UpdateSectionKeepsIdsAndIsIdempotent | app/products/new/page.tsx:86-90 | A patch never changes ids, and applying the same patch twice equals applying it once. |
| NewProductPage.FinalColorName | app/products/new/page.tsx:118-119 | The label is the trimmed name when that is non-blank, otherwise the basic name of the hex. It is never empty. |
| NewProductPage.FinalColorNameFallsBack | app/products/new/page.tsx:118-119 | The basic name is used exactly when the typed name is all JavaScript whitespace. Otherwise the label is the non-empty trimmed name. |
| NewProductPage.FinalColorNameKeepsTypedName | app/products/new/page.tsx:118-119 | A typed name with no whitespace at either end is stored as typed. |
| NewProductPage.HandleUploadImage | app/products/new/page.tsx:92-146 | With no file nothing changes. A failed upload or URL lookup records its error on the section and leaves the images alone. A success appends exactly one image at the end, with that label, the section's hex and the URL, and marks the section uploaded with its file cleared. |
| NewProductPage.UploadedImageIsValid | app/products/new/page.tsx:115-132 | An upload from a section with a picker colour and a valid URL appends an image the product schema accepts. A valid image list stays valid. |
| NewProductPage.UploadedSectionIsMarked | app/products/new/page.tsx:130 | After a successful upload, the section reads as uploaded, with no file and no error. |
| NewProductPage.ResetForm | app/products/new/page.tsx:191-203 | After a reset: empty texts, `inStock` true, no images, and one section with id 1, "#ff0000", "Red", no file, not uploaded and no upload error. |
| NewProductPage.PagePayload | app/products/new/page.tsx:164-173 | The payload sends the price as text, every optional text as present, and the images in form order. |
| NewProductPage.HandleSubmit | app/products/new/page.tsx:148-189 | An empty name, an empty price or no images means `addProduct` is not called and nothing changes. Otherwise the action runs. An error answer or a thrown call keeps the form. Success resets it. |
| NewProductPage.SubmittedProductKeepsImages | app/products/new/page.tsx:164-182 | A successful submit writes one product carrying the form's images in order and its stock flag, then resets the form. |
| NewProductPage.AddMoreReusesIds | app/products/new/page.tsx:60-84 | Add, remove section 1, then add again: two sections share id 2, and removing id 2 leaves no section. |
| NewProductPage.NextId | app/products/new/page.tsx:66 | The fresh id is greater than every id in use. |
| NewProductPage.HandleAddMoreFresh | app/products/new/page.tsx:60-73 | Adding with a fresh id keeps the at-most-5 behaviour and keeps section ids unique. |
| NewProductPage.WithoutIdRemovesAtMostOne | app/products/new/page.tsx:75-84 | When ids are unique, removing by id drops at most one section and keeps ids unique. |
| NewProductPage.ResetIsSound | app/products/new/page.tsx:191-203 | The reset form has one section and unique ids. |
| NewProductPage.AddMoreFreshKeepsSound | app/products/new/page.tsx:60-73 | The corrected add keeps between 1 and 5 sections with unique ids. |
| NewProductPage.RemoveKeepsSound | app/products/new/page.tsx:75-84 | With unique ids, removal keeps between 1 and 5 sections and keeps ids unique. |
| NewProductPage.UpdateSectionKeepsUniqueIds | app/products/new/page.tsx:86-90 | Patching sections never makes two of them share an id. |
| NewProductPage.UploadKeepsSound | app/products/new/page.tsx:92-146 | An upload preserves soundness: still 1 to 5 sections with unique ids. That the ids themselves are kept is `NewProductPage.UpdateSectionKeepsIdsAndIsIdempotent`. |
| ProductForm.InitialForm | app/products/new/Product-form.tsx:18-29 | The form mounts with name, description, vendor, price, brand and category all "", red selected, in stock, no file and no images. |
| ProductForm.GetColorName | app/products/new/Product-form.tsx:62-69 | The result is the name the same five-entry table gives the input exactly as written, and "Custom" for anything else. |
| ProductForm.ColorTablesAgree | app/products/new/Product-form.tsx:62-69 | The page's case-insensitive lookup equals this exact lookup applied to the lower-cased input. |
| ProductForm.ColorNameIsCaseSensitive | app/products/new/Product-form.tsx:62-69 | "#FF0000" is "Custom" here but "Red" on the page. |
| ProductForm.HandleAddColorImage | app/products/new/Product-form.tsx:33-59 | With no file, or a failed upload, nothing changes. On success exactly one variant for the selected colour is appended and the file is cleared. |
| ProductForm.AddedVariantIsValid | app/products/new/Product-form.tsx:46-49 | A variant added for a picker colour with a valid URL passes the image schema. A valid variant list stays valid. |
| ProductForm.Payload | app/products/new/Product-form.tsx:81-90 | The payload sends `Number(price)` as a number, the name, description, vendor, brand and category as given texts, the stock flag and the images in order. |
| ProductForm.Cleared | app/products/new/Product-form.tsx:92-99 | After a submit, texts and images are cleared. `inStock`, the selected colour and the file are kept. |
| ProductForm.HandleSubmit | app/products/new/Product-form.tsx:71-106 | A blocked form (empty name, empty price or no images) never calls the server. A thrown call keeps the form. A call that returns clears the form, whatever it returned. |
| ProductForm.SubmitClearsOnServerError | app/products/new/Product-form.tsx:81-99 | With price "-1", the server refuses and writes nothing, but the form is cleared anyway. |
| ProductForm.HandleSubmitChecked | app/products/new/Product-form.tsx:71-106 | The corrected submit clears the form exactly when a product was written. |
| ImagesField.InitialDrafts | components/product/ImagesField.tsx:33-54 | Given images, the drafts are the first min(3, n) of them, with their URLs, no file and idle. Otherwise there are three empty drafts. |
| ImagesField.UpdateDraft | components/product/ImagesField.tsx:56-62 | Only the draft at the index changes, and the length is kept. |
| ImagesField.Project | components/product/ImagesField.tsx:107-116 | The effect reports one image per draft, in draft order. A missing URL reads as "". |
| ImagesField.ProjectUpdateDraft | components/product/ImagesField.tsx:56-62 | After `updateDraft`, the reported list differs only at that index, where it shows the patched draft. |
| ImagesField.InitialDraftsRoundTrip | components/product/ImagesField.tsx:43-54 | When editing, the effect's first report returns the first three given images unchanged. |
| ImagesField.Normalized | components/product/ImagesField.tsx:90-97 | The report has the drafts' length, the new URL at the uploaded index, and the stored URL (or "") everywhere else. |
| ImagesField.UploadFile | components/product/ImagesField.tsx:64-104 | A draft without a file is left alone. Otherwise only that draft changes. It ends not uploading with no progress, whatever the outcome, and a success stores the URL. A report is emitted iff the upload succeeded and a listener exists. |
| ImagesField.UploadReportMatchesEffect | components/product/ImagesField.tsx:90-116 | The list reported right after an upload equals what the effect later reports for the resulting drafts. |
| ImagesField.HashPrefixed | components/product/ImagesField.tsx:145 | The stored colour always starts with "#", and it equals "#" followed by the text without its leading "#". |
| ImagesField.HashPrefixedIdempotent | components/product/ImagesField.tsx:145 | Feeding a stored colour back into the "#" normalisation leaves it unchanged. |
| ImagesField.ColorCodeInput | components/product/ImagesField.tsx:145 | Typing a colour code stores the raw text as `colorCode` and its "#"-prefixed form as `color`. No other draft changes. |
| ProductCard.HandleBuyWithEscrow | components/product/productCard.tsx:28-64 | With no user, redirect to "/auth/login". A user without an email gets an alert. A request is sent iff there is a user with an email. It carries the name, the price, "USD", the description and that email. |
| ProductCard.CardOf | app/page.tsx:29-31 | The card receives a stored product's id, name, description, price and image URLs in order. |
| ProductCard.AddedProductOnCard | components/product/productCard.tsx:28-64 | A product that `addProduct` has just written shows its first submitted image. Buying it sends the stored non-negative price, the number the input parsed to. |
| ProductCard.DetailLines | components/product/productCard.tsx:85 | There is one "field: message" line per detail, in order. |
| ProductCard.FormatDetails | components/product/productCard.tsx:84-86 | A list gives its "field: message" lines joined by line breaks, starting with the first detail's line. An empty list gives "". Any other value gives its JSON text. That the text splits back into exactly those lines is `ProductCard.DetailLinesRoundTrip`. |
| ProductCard.DetailLinesRoundTrip | components/product/productCard.tsx:82-86 | When no field or message contains a newline, the details text splits back into exactly one "field: message" line per detail. |
| ProductCard.HandleReply | components/product/productCard.tsx:74-95 | A window opens iff the escrow was created. A refusal alerts its message, plus the details after "Details:" when there are any. A network failure alerts the fixed message. |
| ProductCard.RefusalAlertLines | components/product/productCard.tsx:74-95 | A refusal with field errors reads back line by line from its alert: the heading, the message, a blank line, "Details:", then exactly one "field: message" line per detail, when no text holds a line break. |
| ProductCard.CardPictureOf | components/product/productCard.tsx:104-118 | The card shows the first image iff there is one, and the "No image" placeholder otherwise. |
| EmailVerification.OnSubmit | components/auth/email-verification-form.tsx:17-29 | A settled form does nothing. A missing token sets "Missing Token" without calling verification. Verification is called iff the form is unsettled and has a token. A resolved answer overwrites both messages. A rejection sets "Something went wrong". |
| EmailVerification.OnSubmitOneShot | components/auth/email-verification-form.tsx:18 | Once a submit has left a message, every later submit changes nothing and calls nothing. |
| EmailVerification.FirstSubmitSettles | components/auth/email-verification-form.tsx:17-29 | From the initial state, one submit settles the form unless verification resolved with no message at all. |
| EmailVerification.DisplayIsConsistent | components/auth/email-verification-form.tsx:42-47 | Documents the rendering conditions: the loader shows iff no message is set, and a success message hides the error and the loader. The partners of `OnSubmit` are `OnSubmitOneShot` and `FirstSubmitSettles`. |

## Findings

| source | as written | input that shows it | evidently intended | confidence | as-written member | corrected member |
|---|---|---|---|---|---|---|
| auth.ts:94 | `url.startsWith(baseUrl)` with no boundary after the host | base "https://x.test", url "https://x.test.evil.example/" is returned unchanged | only URLs on the base URL's origin pass through | medium, not executed | Auth.RedirectPrefixAdmitsForeignHost | Auth.RedirectSameOrigin |
| app/products/new/page.tsx:66 | new section id is `uploadSections.length + 1` | reset, add, remove id 1, add: ids [2, 2]; removing id 2 then leaves no section | ids unique, and at least one section always kept | high, not executed | NewProductPage.AddMoreReusesIds | NewProductPage.HandleAddMoreFresh |
| app/products/new/Product-form.tsx:81-99 | the `{ error }` answer of `addProduct` is ignored | name "A", price "-1", one image: server refuses, form cleared and reported as created | clear the form only when the product was created, as page.tsx does | high, not executed | ProductForm.SubmitClearsOnServerError | ProductForm.HandleSubmitChecked |

## Left out

- Database, Firebase storage, SMTP, bcrypt, zod's email/URL checks, `Number(...)` and `ObjectId.isValid`: these are I/O or library code. They appear as abstract store operations, uninterpreted functions or outcome parameters.
- The escrow proxy route (app/api/escrow/create/route.ts) and `JSON.stringify` of non-array error details: the route is an HTTP pass-through. The details text is passed in as a string.
- lib/tokens.ts, the database schema and the `newVerification` action are not part of this model. Token generation is modelled as "the given token replaces the email's earlier one". New users get the role USER and two-factor off, the schema defaults.
- The race between reading and deleting the two-factor confirmation: this is concurrency, so sign-in is modelled sequentially.
- NextAuth wiring, React rendering, toasts, alerts other than the product card's, and the transient `isUploading`/`isSaving`/`isLoading` flags: these are UI state that a handler restores before it returns.
- Upload progress callbacks in ImagesField: they are floating-point and are overwritten by the final `progress: null`.
- NewPasswordSchema and ResetSchema: no modelled operation uses them.
- ImagesField.UpdateDraft: requires an index inside the list. In JavaScript a larger index would grow the array with holes, but every caller passes the index of a rendered draft.
- ImagesField.UploadFile: reads the drafts as they were when the upload started, like the source's closure. Edits made while the upload is in flight are not modelled.
- NewProductPage.GetBasicColorName: answers "Custom" when the lower-cased input is "constructor" or "__proto__". The source's object-literal lookup returns the member inherited from `Object.prototype` there, not "Custom". The page only passes colour-picker values, which never hit these names (`NewProductPage.PickerColorIsNoInheritedKey`).
- Strings.ToLower: lower-cases ASCII letters only, where JavaScript's `toLowerCase` covers all of Unicode. The colour tables only contain ASCII.
- String lengths count Unicode characters, where zod's `.min` counts UTF-16 code units. The two differ only outside the Basic Multilingual Plane.
- Zod 3 is assumed. The default messages ("Invalid email", "String must contain at least 6 character(s)") and `z.number()` accepting ±Infinity are zod 3 behaviour. Under zod 4 an infinite price would fail with "Invalid input" instead of "Price must be a non-negative number".
- EmailVerification.OnSubmit: the call and its settlement are one step. In the source the guard at email-verification-form.tsx:18 reads state that is still unset while the promise is pending. So a second run of the effect, as in React StrictMode, calls `newVerification` twice. The model does not capture this.
- Schemas.SettingsIssues: zod's default messages for the enum, email and `.min(6)` failures are fixed strings here, without the received value.
- ProductActions.GetAllProducts: the database leaves the order of products with the same `createdAt` open. The model keeps their stored order.

=== FILE: auth.dfy ===
/**
 * The authentication callback chain of auth.ts as pure functions: the
 * sign-in gate, token enrichment, session projection, the redirect policy
 * and the account-link event. Store reads and writes become arguments and
 * results; the framework that invokes the callbacks is not modelled.
 */
module Auth {
  import opened Wrappers
  import opened Strings
  import opened Db

  const CredentialsProvider: string := "credentials"

  /** Where an off-site or unrecognised redirect is sent, relative to the base URL. */
  const DefaultLandingPath: string := "/user"

  // ---------------------------------------------------------------------------
  // signIn

  datatype SignInOutcome = SignInOutcome(allowed: bool, store: Store)

  /**
   * The key the credentials branch looks the user up by: `user.id || ""`.
   * The source then reads and deletes the confirmation under the found
   * user's `id`; on a store satisfying `Db.WellFormed` every user row sits
   * under its own id, so that id is this key, and the model uses the key
   * for both.
   */
  function LookupKey(userId: Option<string>): string {
    userId.GetOr("")
  }

  /**
   * The `signIn` callback. Any provider other than credentials (including a
   * missing account) is let through untouched. A credentials sign-in needs an
   * existing user whose email is verified and, when two-factor is on, a
   * confirmation row, which the sign-in consumes.
   */
  function SignIn(provider: Option<string>, userId: Option<string>, st: Store): (r: SignInOutcome)
    ensures provider != Some(CredentialsProvider) ==> r.allowed && r.store == st
    ensures provider == Some(CredentialsProvider) ==>
      var k := LookupKey(userId);
      (r.allowed <==>
         && k in st.users
         && st.users[k].emailVerified.Some?
         && (st.users[k].isTwoFactorEnabled ==> k in st.twoFactorConfirmations))
    ensures !r.allowed ==> r.store == st
    ensures r.store == st
            || (&& r.allowed
                && LookupKey(userId) in st.twoFactorConfirmations
                && r.store == st.(twoFactorConfirmations := st.twoFactorConfirmations - {LookupKey(userId)}))
    ensures r.store != st ==>
      && provider == Some(CredentialsProvider)
      && LookupKey(userId) in st.users
      && st.users[LookupKey(userId)].isTwoFactorEnabled
    ensures provider == Some(CredentialsProvider) && r.allowed
            && LookupKey(userId) in st.users && st.users[LookupKey(userId)].isTwoFactorEnabled ==>
      && LookupKey(userId) in st.twoFactorConfirmations
      && r.store == st.(twoFactorConfirmations := st.twoFactorConfirmations - {LookupKey(userId)})
      && LookupKey(userId) !in r.store.twoFactorConfirmations
  {
    if provider != Some(CredentialsProvider) then SignInOutcome(true, st)
    else
      match GetUserById(st, LookupKey(userId))
      case None => SignInOutcome(false, st)
      case Some(u) =>
        if u.emailVerified.None? then SignInOutcome(false, st)
        else if !u.isTwoFactorEnabled then SignInOutcome(true, st)
        else if LookupKey(userId) !in st.twoFactorConfirmations then SignInOutcome(false, st)
        else
          SignInOutcome(true, st.(twoFactorConfirmations := st.twoFactorConfirmations - {LookupKey(userId)}))
  }

  /**
   * A two-factor confirmation admits exactly one credentials sign-in: the
   * first attempt is allowed and removes it, and a second attempt against the
   * resulting store is denied.
   */
  lemma TwoFactorConfirmationSingleUse(userId: Option<string>, st: Store)
    requires LookupKey(userId) in st.users
    requires st.users[LookupKey(userId)].emailVerified.Some?
    requires st.users[LookupKey(userId)].isTwoFactorEnabled
    requires LookupKey(userId) in st.twoFactorConfirmations
    ensures var first := SignIn(Some(CredentialsProvider), userId, st);
            && first.allowed
            && LookupKey(userId) !in first.store.twoFactorConfirmations
            && !SignIn(Some(CredentialsProvider), userId, first.store).allowed
  {
  }

  // ---------------------------------------------------------------------------
  // jwt

  /** The claims of a JWT that the callbacks read or write; the rest ride along untouched. */
  datatype Token = Token(
    sub: Option<string>,
    name: Option<string>,
    email: Option<string>,
    role: Option<UserRole>,
    isTwoFactorEnabled: Option<bool>,
    isOAuth: Option<bool>,
    otherClaims: map<string, string>)

  /** The token carries the store's current view of its subject. */
  predicate ReflectsUser(t: Token, st: Store, u: User) {
    && t.isOAuth == Some(HasAccount(st, u.id))
    && t.name == u.name
    && t.email == u.email
    && t.role == Some(u.role)
    && t.isTwoFactorEnabled == Some(u.isTwoFactorEnabled)
  }

  /**
   * The `jwt` callback: a token without a subject, or whose subject is not a
   * user, comes back unchanged; otherwise the five claims are refreshed from
   * the user row and its linked accounts, and nothing else is touched.
   */
  function Jwt(t: Token, st: Store): (r: Token)
    ensures r.sub == t.sub && r.otherClaims == t.otherClaims
    ensures !(Truthy(t.sub) && t.sub.value in st.users) ==> r == t
    ensures Truthy(t.sub) && t.sub.value in st.users ==> ReflectsUser(r, st, st.users[t.sub.value])
  {
    if !Truthy(t.sub) then t
    else
      match GetUserById(st, t.sub.value)
      case None => t
      case Some(u) =>
        t.(isOAuth := Some(HasAccount(st, u.id)),
           name := u.name,
           email := u.email,
           role := Some(u.role),
           isTwoFactorEnabled := Some(u.isTwoFactorEnabled))
  }

  /** Enrichment can run on every refresh: a second run against the same store changes nothing. */
  lemma JwtIdempotent(t: Token, st: Store)
    ensures Jwt(Jwt(t, st), st) == Jwt(t, st)
  {
  }

  // ---------------------------------------------------------------------------
  // session

  datatype SessionUser = SessionUser(
    id: Option<string>,
    name: Option<string>,
    email: Option<string>,
    image: Option<string>,
    role: Option<UserRole>,
    isTwoFactorEnabled: Option<bool>,
    isOAuth: Option<bool>)

  datatype Session = Session(user: Option<SessionUser>, expires: string)

  /**
   * The `session` callback. With no session user nothing is written. With
   * one, `id` is taken from the token only when the token has a subject and
   * `role` only when the token has a role; the two-factor flag, name, email
   * and OAuth flag are copied unconditionally, absent values included.
   */
  function ProjectSession(t: Token, s: Session): (r: Session)
    ensures r.expires == s.expires
    ensures r.user.Some? <==> s.user.Some?
    ensures s.user.None? ==> r == s
    ensures s.user.Some? ==>
      && r.user.value.id == (if Truthy(t.sub) then t.sub else s.user.value.id)
      && r.user.value.role == (if t.role.Some? then t.role else s.user.value.role)
      && r.user.value.isTwoFactorEnabled == t.isTwoFactorEnabled
      && r.user.value.name == t.name
      && r.user.value.email == t.email
      && r.user.value.isOAuth == t.isOAuth
      && r.user.value.image == s.user.value.image
  {
    match s.user
    case None => s
    case Some(su) =>
      var withId := if Truthy(t.sub) then su.(id := t.sub) else su;
      var withRole := if t.role.Some? then withId.(role := t.role) else withId;
      s.(user := Some(withRole.(isTwoFactorEnabled := t.isTwoFactorEnabled,
                               name := t.name,
                               email := t.email,
                               isOAuth := t.isOAuth)))
  }

  /** Projecting the same token twice is projecting it once. */
  lemma ProjectSessionIdempotent(t: Token, s: Session)
    ensures ProjectSession(t, ProjectSession(t, s)) == ProjectSession(t, s)
  {
  }

  /**
   * The pipeline end to end: after enrichment of a token whose subject is a
   * user, the projected session names that user with the store's role, name,
   * email and flags.
   */
  lemma SessionReflectsStore(t: Token, s: Session, st: Store)
    requires Truthy(t.sub) && t.sub.value in st.users
    requires s.user.Some?
    ensures var u := st.users[t.sub.value];
            var su := ProjectSession(Jwt(t, st), s).user.value;
            && su.id == t.sub
            && su.role == Some(u.role)
            && su.name == u.name
            && su.email == u.email
            && su.isTwoFactorEnabled == Some(u.isTwoFactorEnabled)
            && su.isOAuth == Some(HasAccount(st, u.id))
  {
  }

  // ---------------------------------------------------------------------------
  // redirect

  /**
   * The `redirect` callback: a path is resolved against the base URL, a URL
   * that already starts with the base URL passes through, anything else goes
   * to the default landing page. Whatever the input, the result starts with
   * the base URL.
   */
  function Redirect(url: string, baseUrl: string): (r: string)
    ensures StartsWith(r, baseUrl)
    ensures StartsWith(url, "/") ==> r == baseUrl + url
    ensures !StartsWith(url, "/") && StartsWith(url, baseUrl) ==> r == url
    ensures !StartsWith(url, "/") && !StartsWith(url, baseUrl) ==> r == baseUrl + DefaultLandingPath
  {
    if StartsWith(url, "/") then
      ConcatStartsWith(baseUrl, url);
      baseUrl + url
    else if StartsWith(url, baseUrl) then url
    else
      ConcatStartsWith(baseUrl, DefaultLandingPath);
      baseUrl + DefaultLandingPath
  }

  /** A URL on the base URL's own origin: the base itself, or it followed by a path, query or fragment. */
  predicate SameOrigin(r: string, baseUrl: string) {
    r == baseUrl || StartsWith(r, baseUrl + "/") || StartsWith(r, baseUrl + "?") || StartsWith(r, baseUrl + "#")
  }

  /**
   * The prefix test lets through a host whose name merely extends the base
   * URL's host: with base "https://x.test", "https://x.test.evil.example/"
   * passes unchanged, although it is not on the base URL's origin.
   */
  lemma RedirectPrefixAdmitsForeignHost()
    ensures var base := "https://x.test";
            var url := "https://x.test.evil.example/";
            Redirect(url, base) == url && !SameOrigin(Redirect(url, base), base)
  {
    var base := "https://x.test";
    var url := "https://x.test.evil.example/";
    assert url[..|base|] == base;
    assert !StartsWith(url, "/") by { assert url[0] != '/'; }
    assert url != base;
    assert url[|base|] == '.';
    assert !StartsWith(url, base + "/") by { assert (base + "/")[|base|] == '/'; }
    assert !StartsWith(url, base + "?") by { assert (base + "?")[|base|] == '?'; }
    assert !StartsWith(url, base + "#") by { assert (base + "#")[|base|] == '#'; }
  }

  /**
   * The redirect policy with the origin check the prefix test stands in for:
   * an absolute URL passes only when it is on the base URL's origin.
   */
  function RedirectSameOrigin(url: string, baseUrl: string): (r: string)
    ensures SameOrigin(r, baseUrl)
    ensures StartsWith(url, "/") ==> r == baseUrl + url
    ensures !StartsWith(url, "/") && SameOrigin(url, baseUrl) ==> r == url
    ensures !StartsWith(url, "/") && !SameOrigin(url, baseUrl) ==> r == baseUrl + DefaultLandingPath
  {
    if StartsWith(url, "/") then
      assert (baseUrl + url)[..|baseUrl + "/"|] == baseUrl + "/";
      baseUrl + url
    else if SameOrigin(url, baseUrl) then url
    else
      assert (baseUrl + DefaultLandingPath)[..|baseUrl + "/"|] == baseUrl + "/";
      baseUrl + DefaultLandingPath
  }

  /** On every input the two policies agree except where the prefix test admits another origin. */
  lemma RedirectPoliciesAgreeOnSameOrigin(url: string, baseUrl: string)
    ensures SameOrigin(Redirect(url, baseUrl), baseUrl) ==> Redirect(url, baseUrl) == RedirectSameOrigin(url, baseUrl)
  {
    if !StartsWith(url, "/") && SameOrigin(url, baseUrl) {
      assert StartsWith(url, baseUrl) by {
        if url != baseUrl {
          if StartsWith(url, baseUrl + "/") { StartsWithTransitive(url, baseUrl + "/", baseUrl); ConcatStartsWith(baseUrl, "/"); }
          else if StartsWith(url, baseUrl + "?") { StartsWithTransitive(url, baseUrl + "?", baseUrl); ConcatStartsWith(baseUrl, "?"); }
          else { StartsWithTransitive(url, baseUrl + "#", baseUrl); ConcatStartsWith(baseUrl, "#"); }
        }
      }
    }
  }

  // ---------------------------------------------------------------------------
  // linkAccount event

  datatype DbError = RecordNotFound

  /**
   * The `linkAccount` event: marks the user's email verified at `now`. The
   * update of a missing user fails; otherwise exactly that user's
   * `emailVerified` changes.
   */
  function LinkAccount(userId: UserId, now: Instant, st: Store): (r: Result<Store, DbError>)
    ensures r.Success? <==> userId in st.users
    ensures r.Success? ==>
      && r.value.users.Keys == st.users.Keys
      && r.value.users[userId] == st.users[userId].(emailVerified := Some(now))
      && (forall id :: id in st.users && id != userId ==> r.value.users[id] == st.users[id])
      && r.value.accounts == st.accounts
      && r.value.twoFactorConfirmations == st.twoFactorConfirmations
      && r.value.verificationTokens == st.verificationTokens
      && r.value.products == st.products
  {
    if userId !in st.users then Failure(RecordNotFound)
    else Success(st.(users := st.users[userId := st.users[userId].(emailVerified := Some(now))]))
  }

  /** After an account link, a credentials sign-in of that user passes the verified-email gate. */
  lemma LinkedUserPassesVerification(userId: UserId, now: Instant, st: Store)
    requires userId in st.users
    requires !st.users[userId].isTwoFactorEnabled
    ensures LinkAccount(userId, now, st).Success?
    ensures SignIn(Some(CredentialsProvider), Some(userId), LinkAccount(userId, now, st).value).allowed
  {
  }
}

=== FILE: db.dfy ===
/**
 * The persisted records and the store that holds them. The relational
 * database behind the ORM is replaced by maps and a sequence; every query
 * the modelled code issues is one of the functions below.
 */
module Db {
  import opened Wrappers

  type UserId = string

  /** A timestamp in milliseconds, as `new Date()` would give. */
  type Instant = int

  datatype UserRole = ADMIN | USER

  datatype User = User(
    id: UserId,
    name: Option<string>,
    email: Option<string>,
    password: Option<string>,     // bcrypt hash; absent for OAuth-only users
    emailVerified: Option<Instant>,
    role: UserRole,
    isTwoFactorEnabled: bool)

  /** A linked OAuth account. */
  datatype Account = Account(userId: UserId, provider: string)

  datatype TwoFactorConfirmation = TwoFactorConfirmation(id: string, userId: UserId)

  datatype VerificationToken = VerificationToken(email: string, token: string, expires: Instant)

  /** One colour variant of a product: a label, a hex code and a download URL. */
  datatype ProductImage = ProductImage(color: string, colorCode: string, image: string)

  datatype Product = Product(
    id: string,
    name: string,
    description: string,
    vendor: string,
    price: real,
    brand: string,
    category: string,
    inStock: bool,
    images: seq<ProductImage>,
    createdAt: Instant)

  datatype Store = Store(
    users: map<UserId, User>,
    accounts: set<Account>,
    twoFactorConfirmations: map<UserId, TwoFactorConfirmation>,  // unique per user
    verificationTokens: map<string, VerificationToken>,          // latest per email
    products: seq<Product>)

  /** `getUserById(id)`. */
  function GetUserById(st: Store, id: UserId): Option<User> {
    if id in st.users then Some(st.users[id]) else None
  }

  /** `getUserByEmail(email)` found a row. */
  predicate EmailInUse(st: Store, email: string) {
    exists id :: id in st.users && st.users[id].email == Some(email)
  }

  /** `getAccountByUserId(id)` found a row. */
  predicate HasAccount(st: Store, id: UserId) {
    exists a :: a in st.accounts && a.userId == id
  }

  /** The store's own integrity: rows are filed under their keys and emails are unique. */
  predicate WellFormed(st: Store) {
    && (forall id :: id in st.users ==> st.users[id].id == id)
    && (forall id, id' :: (id in st.users && id' in st.users && id != id' && st.users[id].email.Some?)
                         ==> st.users[id].email != st.users[id'].email)
    && (forall id :: id in st.twoFactorConfirmations ==> st.twoFactorConfirmations[id].userId == id)
    && (forall e :: e in st.verificationTokens ==> st.verificationTokens[e].email == e)
  }
}

=== FILE: email_verification.dfy ===
/**
 * The one-shot state machine of components/auth/email-verification-form.tsx:
 * the form verifies its token once, then shows the success or the error
 * message; until then it shows a loader.
 */
module EmailVerification {
  import opened Wrappers
  import opened Strings

  datatype FormState = FormState(success: Option<string>, error: Option<string>)

  const Initial: FormState := FormState(None, None)

  /** How `newVerification(token)` settles. */
  datatype VerifyOutcome = Resolved(success: Option<string>, error: Option<string>) | Rejected

  datatype Step = Step(state: FormState, called: bool)

  const MissingToken: string := "Missing Token"
  const SomethingWentWrong: string := "Something went wrong"

  /** A message has been shown: the form has nothing more to do. */
  predicate Settled(s: FormState) {
    Truthy(s.success) || Truthy(s.error)
  }

  /**
   * `onSubmit`. A settled form does nothing; a missing token sets the
   * "Missing Token" error without calling verification; otherwise the
   * verification is called and a resolved answer overwrites both messages,
   * while a rejection sets the generic error and keeps the success message.
   */
  function OnSubmit(s: FormState, token: Option<string>, outcome: VerifyOutcome): (r: Step)
    ensures Settled(s) ==> r == Step(s, false)
    ensures !Settled(s) && !Truthy(token) ==> r == Step(s.(error := Some(MissingToken)), false)
    ensures r.called <==> !Settled(s) && Truthy(token)
    ensures r.called && outcome.Resolved? ==> r.state == FormState(outcome.success, outcome.error)
    ensures r.called && outcome.Rejected? ==> r.state == s.(error := Some(SomethingWentWrong))
  {
    if Settled(s) then Step(s, false)
    else if !Truthy(token) then Step(s.(error := Some(MissingToken)), false)
    else
      match outcome
      case Resolved(success, error) => Step(FormState(success, error), true)
      case Rejected => Step(s.(error := Some(SomethingWentWrong)), true)
  }

  /**
   * One shot: once a submit has left a message, every later submit, with
   * any token and any outcome, changes nothing and calls nothing.
   */
  lemma OnSubmitOneShot(s: FormState, t1: Option<string>, o1: VerifyOutcome, t2: Option<string>, o2: VerifyOutcome)
    requires Settled(OnSubmit(s, t1, o1).state)
    ensures OnSubmit(OnSubmit(s, t1, o1).state, t2, o2) == Step(OnSubmit(s, t1, o1).state, false)
  {
  }

  /** From the initial state every submit settles the form, except a resolved answer that carries no message. */
  lemma FirstSubmitSettles(token: Option<string>, outcome: VerifyOutcome)
    ensures Settled(OnSubmit(Initial, token, outcome).state)
            <==> !(Truthy(token) && outcome.Resolved? && !Truthy(outcome.success) && !Truthy(outcome.error))
  {
  }

  /** The loader is shown while no message is. */
  predicate ShowsLoader(s: FormState) {
    !Truthy(s.success) && !Truthy(s.error)
  }

  /** The error slot is rendered only while there is no success message. */
  predicate ShowsError(s: FormState) {
    !Truthy(s.success)
  }

  /** The loader and the messages exclude each other, and a success hides any error. */
  lemma DisplayIsConsistent(s: FormState)
    ensures ShowsLoader(s) <==> !Settled(s)
    ensures Truthy(s.success) ==> !ShowsError(s) && !ShowsLoader(s)
    ensures Truthy(s.error) && !Truthy(s.success) ==> ShowsError(s) && !ShowsLoader(s)
  {
  }
}

=== FILE: externals.dfy ===
/**
 * Library behaviour the decision logic calls but does not define: zod's
 * `.email()` and `.url()` checks, JavaScript's `Number(...)`, bson's
 * `ObjectId.isValid` and bcrypt hashing. Each is an uninterpreted function
 * carried in an `Env`, so every property proved holds for any behaviour of them.
 */
module Externals {

  /** A JavaScript number, with the non-finite values kept apart. */
  datatype JsNumber = Finite(value: real) | NaN | PosInfinity | NegInfinity {

    /** `Number.isFinite(n)`. */
    predicate IsFinite() {
      Finite?
    }
  }

  datatype Env = Env(
    isEmail: string -> bool,       // zod string().email()
    isUrl: string -> bool,         // zod string().url()
    toNumber: string -> JsNumber,  // Number(s) on a string
    isObjectId: string -> bool,    // ObjectId.isValid(id)
    hash: string -> string         // bcrypt.hash(password, 10)
  )
}

=== FILE: images_field.dfy ===
/**
 * The image-variant editor of components/product/ImagesField.tsx: a list of
 * drafts, each with a colour, a colour code, an optional file and the URL it
 * was uploaded to, and the list of images it reports to its parent.
 */
module ImagesField {
  import opened Wrappers
  import opened Strings
  import opened Db
  import NewProductPage

  datatype ImageDraft = ImageDraft(
    color: string,
    colorCode: string,
    file: Option<NewProductPage.FileRef>,
    uploading: bool,
    progress: Option<real>,
    imageUrl: Option<string>)

  const DraftSlots: nat := 3

  function EmptyDraft(): ImageDraft {
    ImageDraft("", "", None, false, None, None)
  }

  /** A stored image as a draft: its URL kept, no file, idle. */
  function DraftOf(v: ProductImage): ImageDraft {
    ImageDraft(v.color, v.colorCode, None, false, None, Some(v.image))
  }

  function Min(a: nat, b: nat): nat {
    if a <= b then a else b
  }

  /**
   * The initial `drafts`: the first (up to) three given images when there is
   * at least one, otherwise three empty drafts.
   */
  function InitialDrafts(value: Option<seq<ProductImage>>): (r: seq<ImageDraft>)
    ensures value.Some? && |value.value| > 0 ==>
      && |r| == Min(DraftSlots, |value.value|)
      && (forall i :: 0 <= i < |r| ==> r[i] == DraftOf(value.value[i]))
    ensures !(value.Some? && |value.value| > 0) ==> r == [EmptyDraft(), EmptyDraft(), EmptyDraft()]
    ensures 1 <= |r| <= DraftSlots
  {
    if value.Some? && |value.value| > 0 then
      var v := value.value[..Min(DraftSlots, |value.value|)];
      seq(|v|, i requires 0 <= i < |v| => DraftOf(v[i]))
    else [EmptyDraft(), EmptyDraft(), EmptyDraft()]
  }

  /** The fields a `Partial<ImageDraft>` may set; `Some(None)` writes `null`. */
  datatype DraftPatch = DraftPatch(
    color: Option<string>,
    colorCode: Option<string>,
    file: Option<Option<NewProductPage.FileRef>>,
    uploading: Option<bool>,
    progress: Option<Option<real>>,
    imageUrl: Option<Option<string>>)

  const NoChange: DraftPatch := DraftPatch(None, None, None, None, None, None)

  /** `{ ...d, ...patch }`. */
  function ApplyDraftPatch(d: ImageDraft, p: DraftPatch): ImageDraft {
    d.(color := p.color.GetOr(d.color),
       colorCode := p.colorCode.GetOr(d.colorCode),
       file := p.file.GetOr(d.file),
       uploading := p.uploading.GetOr(d.uploading),
       progress := p.progress.GetOr(d.progress),
       imageUrl := p.imageUrl.GetOr(d.imageUrl))
  }

  /** `updateDraft(index, patch)`: only the draft at `index` changes; the length is kept. */
  function UpdateDraft(ds: seq<ImageDraft>, index: nat, p: DraftPatch): (r: seq<ImageDraft>)
    requires index < |ds|
    ensures |r| == |ds|
    ensures r[index] == ApplyDraftPatch(ds[index], p)
    ensures forall j :: 0 <= j < |ds| && j != index ==> r[j] == ds[j]
  {
    ds[index := ApplyDraftPatch(ds[index], p)]
  }

  /** An image as the parent sees it: a missing URL reads as "". */
  function ImageOf(d: ImageDraft): ProductImage {
    ProductImage(d.color, d.colorCode, d.imageUrl.GetOr(""))
  }

  /** The `useEffect` projection: one image per draft, in draft order. */
  function Project(ds: seq<ImageDraft>): (r: seq<ProductImage>)
    ensures |r| == |ds|
    ensures forall i :: 0 <= i < |ds| ==> r[i] == ImageOf(ds[i])
  {
    seq(|ds|, i requires 0 <= i < |ds| => ImageOf(ds[i]))
  }

  /** What the parent sees after `updateDraft`: only the image at `index` changes. */
  lemma ProjectUpdateDraft(ds: seq<ImageDraft>, index: nat, p: DraftPatch)
    requires index < |ds|
    ensures Project(UpdateDraft(ds, index, p)) == Project(ds)[index := ImageOf(ApplyDraftPatch(ds[index], p))]
  {
  }

  /** Editing with stored images: the first report hands back the first three of them unchanged. */
  lemma InitialDraftsRoundTrip(v: seq<ProductImage>)
    requires |v| > 0
    ensures Project(InitialDrafts(Some(v))) == v[..Min(DraftSlots, |v|)]
  {
    var r := Project(InitialDrafts(Some(v)));
    forall i | 0 <= i < |r| ensures r[i] == v[i] {
    }
  }

  // ---------------------------------------------------------------------------
  // Upload

  /** How `uploadBytesResumable` and `getDownloadURL` end together. */
  datatype UploadOutcome = UploadDone(url: string) | UploadError

  datatype UploadResult = UploadResult(drafts: seq<ImageDraft>, emitted: Option<seq<ProductImage>>)

  /**
   * The list `uploadFile` reports right after a successful upload, built from
   * the drafts as they were when the upload started.
   */
  function Normalized(ds: seq<ImageDraft>, index: nat, url: string): (r: seq<ProductImage>)
    requires index < |ds|
    ensures |r| == |ds|
    ensures r[index] == ProductImage(ds[index].color, ds[index].colorCode, url)
    ensures forall j :: 0 <= j < |ds| && j != index ==> r[j] == ImageOf(ds[j])
  {
    seq(|ds|, i requires 0 <= i < |ds| =>
      ProductImage(ds[i].color, ds[i].colorCode, if i == index then url else ds[i].imageUrl.GetOr("")))
  }

  const StartPatch: DraftPatch := NoChange.(uploading := Some(true), progress := Some(Some(0.0)))
  const FinishPatch: DraftPatch := NoChange.(uploading := Some(false), progress := Some(None))

  /**
   * `uploadFile(index)`. A draft without a file is left alone. Otherwise the
   * draft is marked uploading; a success stores the URL and, when the parent
   * listens, reports the normalised list; and whatever the outcome the draft
   * ends idle with no progress.
   */
  function UploadFile(ds: seq<ImageDraft>, index: nat, hasOnChange: bool, outcome: UploadOutcome): (r: UploadResult)
    requires index < |ds|
    ensures ds[index].file.None? ==> r == UploadResult(ds, None)
    ensures |r.drafts| == |ds|
    ensures forall j :: 0 <= j < |ds| && j != index ==> r.drafts[j] == ds[j]
    ensures ds[index].file.Some? ==> !r.drafts[index].uploading && r.drafts[index].progress.None?
    ensures ds[index].file.Some? ==>
      r.drafts[index].imageUrl == (if outcome.UploadDone? then Some(outcome.url) else ds[index].imageUrl)
    ensures r.drafts[index].color == ds[index].color && r.drafts[index].colorCode == ds[index].colorCode
    ensures r.drafts[index].file == ds[index].file
    ensures r.emitted.Some? <==> ds[index].file.Some? && hasOnChange && outcome.UploadDone?
    ensures r.emitted.Some? ==> r.emitted.value == Normalized(ds, index, outcome.url)
  {
    if ds[index].file.None? then UploadResult(ds, None)
    else
      var started := UpdateDraft(ds, index, StartPatch);
      match outcome
      case UploadError =>
        UploadResult(UpdateDraft(started, index, FinishPatch), None)
      case UploadDone(url) =>
        var stored := UpdateDraft(started, index, NoChange.(imageUrl := Some(Some(url))));
        UploadResult(UpdateDraft(stored, index, FinishPatch),
                     if hasOnChange then Some(Normalized(ds, index, url)) else None)
  }

  /**
   * The list reported right after an upload is the one the effect reports
   * for the drafts the upload leaves: the two emissions agree.
   */
  lemma UploadReportMatchesEffect(ds: seq<ImageDraft>, index: nat, url: string)
    requires index < |ds| && ds[index].file.Some?
    ensures var r := UploadFile(ds, index, true, UploadDone(url));
            r.emitted == Some(Project(r.drafts))
  {
    var r := UploadFile(ds, index, true, UploadDone(url));
    assert Normalized(ds, index, url) == Project(r.drafts);
  }

  // ---------------------------------------------------------------------------
  // Colour-code input

  /** The text with one leading "#" removed, if it has one. */
  function DropHash(text: string): string {
    if StartsWith(text, "#") then text[1..] else text
  }

  /** The `color` the colour-code input stores: the text, "#"-prefixed when it lacks one. */
  function HashPrefixed(text: string): (r: string)
    ensures StartsWith(r, "#")
    ensures r == "#" + DropHash(text)
    ensures StartsWith(text, "#") ==> r == text
  {
    if StartsWith(text, "#") then
      assert text == text[..1] + text[1..];
      text
    else
      ConcatStartsWith("#", text);
      "#" + text
  }

  /**
   * Typing into the colour-code input: `colorCode` becomes the raw text and
   * `color` its "#"-prefixed form; no other draft changes.
   */
  function ColorCodeInput(ds: seq<ImageDraft>, index: nat, text: string): (r: seq<ImageDraft>)
    requires index < |ds|
    ensures |r| == |ds|
    ensures r[index].colorCode == text && StartsWith(r[index].color, "#")
    ensures r[index].color == "#" + DropHash(text)
    ensures r[index].imageUrl == ds[index].imageUrl && r[index].file == ds[index].file
    ensures forall j :: 0 <= j < |ds| && j != index ==> r[j] == ds[j]
  {
    UpdateDraft(ds, index, NoChange.(color := Some(HashPrefixed(text)), colorCode := Some(text)))
  }

  /** Prefixing is stable: feeding the stored `color` back in gives the same `color`. */
  lemma HashPrefixedIdempotent(text: string)
    ensures HashPrefixed(HashPrefixed(text)) == HashPrefixed(text)
  {
  }
}

=== FILE: new_product_page.dfy ===
/**
 * The form state of the product-creation page (app/products/new/page.tsx):
 * up to five upload sections, the uploaded images, the text fields, and the
 * submit that hands them to `addProduct`. Each handler is a function from
 * the form state before to the form state after; the in-flight flags
 * (`isUploading`, `isSaving`) are transient and not kept.
 */
module NewProductPage {
  import opened Wrappers
  import opened Strings
  import opened Externals
  import opened Db
  import opened Schemas
  import opened ProductActions

  /** A chosen file; only its identity matters here. */
  datatype FileRef = FileRef(name: string)

  datatype UploadSection = UploadSection(
    id: int,
    file: Option<FileRef>,
    color: string,       // hex
    colorName: string,   // label
    isUploaded: bool,
    uploadError: Option<string>)

  datatype PageForm = PageForm(
    name: string,
    description: string,
    vendor: string,
    price: string,
    brand: string,
    category: string,
    inStock: bool,
    images: seq<ProductImage>,
    sections: seq<UploadSection>)

  const MaxSections: nat := 5

  // ---------------------------------------------------------------------------
  // Colour names

  /** The five named colours, keyed by lower-case hex; both product forms use this table. */
  const BasicColorNames: map<string, string> :=
    map["#ff0000" := "Red", "#00ff00" := "Green", "#0000ff" := "Blue", "#000000" := "Black", "#ffffff" := "White"]

  predicate IsBasicHex(h: string) {
    h in BasicColorNames
  }

  /** What an `<input type="color">` yields: "#" and six lower-case hex digits. */
  predicate IsPickerColor(s: string) {
    |s| == 7 && s[0] == '#' && forall i :: 1 <= i < 7 ==> ('0' <= s[i] <= '9' || 'a' <= s[i] <= 'f')
  }

  /** Every colour-picker value satisfies the image schema's hex pattern. */
  lemma PickerColorMatchesHex(s: string)
    requires IsPickerColor(s)
    ensures MatchesHexColor(s)
  {
    HexColorShape(s);
  }

  predicate IsColorLabel(n: string) {
    n == "Red" || n == "Green" || n == "Blue" || n == "Black" || n == "White" || n == "Custom"
  }

  /**
   * `getBasicColorName(hex)`: the name of one of the five colours, matched
   * after lower-casing, and "Custom" for anything else.
   */
  function GetBasicColorName(hex: string): (r: string)
    ensures IsColorLabel(r)
    ensures r == "Custom" <==> !IsBasicHex(ToLower(hex))
    ensures r == (if ToLower(hex) in BasicColorNames then BasicColorNames[ToLower(hex)] else "Custom")
  {
    match ToLower(hex)
    case "#ff0000" => "Red"
    case "#00ff00" => "Green"
    case "#0000ff" => "Blue"
    case "#000000" => "Black"
    case "#ffffff" => "White"
    case _ => "Custom"
  }

  /**
   * The all-lower-case property names a plain object literal inherits from
   * `Object.prototype`. Only these can be reached by a lower-cased key; for
   * them the source's table lookup yields the inherited member, so its
   * `?? "Custom"` fallback does not apply. `GetBasicColorName` answers
   * "Custom" there instead.
   */
  const InheritedLowerCaseKeys: set<string> := {"constructor", "__proto__"}

  /** No colour-picker value, lower-cased, is an inherited property name. */
  lemma PickerColorIsNoInheritedKey(s: string)
    requires IsPickerColor(s)
    ensures ToLower(s) !in InheritedLowerCaseKeys
  {
    assert ToLower(s)[0] == '#';
  }

  /** The lookup ignores the case of the hex letters. */
  lemma BasicColorNameIgnoresCase(hex: string)
    ensures GetBasicColorName(hex) == GetBasicColorName(ToLower(hex))
  {
    ToLowerIdempotent(hex);
  }

  // ---------------------------------------------------------------------------
  // Sections

  /** The section `handleAddMore` appends. */
  function BlueSection(id: int): UploadSection {
    UploadSection(id, None, "#0000ff", "Blue", false, None)
  }

  /** The single section the page starts with and returns to on reset. */
  function RedSection(): UploadSection {
    UploadSection(1, None, "#ff0000", "Red", false, None)
  }

  /**
   * `handleAddMore`: at five sections nothing happens; below, one blue
   * section is appended with id one more than the current count.
   */
  function HandleAddMore(f: PageForm): (r: PageForm)
    ensures |f.sections| >= MaxSections ==> r == f
    ensures |f.sections| < MaxSections ==>
      && r == f.(sections := r.sections)
      && |r.sections| == |f.sections| + 1
      && r.sections[..|f.sections|] == f.sections
      && r.sections[|f.sections|] == BlueSection(|f.sections| + 1)
    ensures |f.sections| <= MaxSections ==> |r.sections| <= MaxSections
  {
    if |f.sections| >= MaxSections then f
    else f.(sections := f.sections + [BlueSection(|f.sections| + 1)])
  }

  /**
   * The `filter` of `handleRemoveSection`: the sections whose id differs from
   * `id`, each kept as often as it occurs (`WithoutIdCounts`) and in its
   * original order (`WithoutIdAppend`).
   */
  function WithoutId(ss: seq<UploadSection>, id: int): (r: seq<UploadSection>)
    ensures forall s :: s in r <==> s in ss && s.id != id
    ensures |r| <= |ss|
    ensures (forall i :: 0 <= i < |ss| ==> ss[i].id != id) ==> r == ss
    decreases |ss|
  {
    if |ss| == 0 then []
    else if ss[0].id == id then WithoutId(ss[1..], id)
    else
      assert ss == [ss[0]] + ss[1..];
      [ss[0]] + WithoutId(ss[1..], id)
  }

  /** The filter drops every copy of a section with the id and keeps every copy of the others. */
  lemma {:induction false} WithoutIdCounts(ss: seq<UploadSection>, id: int)
    ensures forall s :: multiset(WithoutId(ss, id))[s] == if s.id == id then 0 else multiset(ss)[s]
    decreases |ss|
  {
    if |ss| > 0 {
      WithoutIdCounts(ss[1..], id);
      assert ss == [ss[0]] + ss[1..];
      assert multiset(ss) == multiset([ss[0]]) + multiset(ss[1..]);
      if ss[0].id != id {
        assert WithoutId(ss, id) == [ss[0]] + WithoutId(ss[1..], id);
        assert multiset(WithoutId(ss, id)) == multiset([ss[0]]) + multiset(WithoutId(ss[1..], id));
      }
    }
  }

  /** Filtering distributes over concatenation, so the survivors keep their relative order. */
  lemma {:induction false} WithoutIdAppend(a: seq<UploadSection>, b: seq<UploadSection>, id: int)
    ensures WithoutId(a + b, id) == WithoutId(a, id) + WithoutId(b, id)
    decreases |a|
  {
    if |a| > 0 {
      assert (a + b)[0] == a[0];
      assert (a + b)[1..] == a[1..] + b;
      WithoutIdAppend(a[1..], b, id);
    } else {
      assert a + b == b;
    }
  }

  /**
   * `handleRemoveSection(id)`: with a single section nothing happens;
   * otherwise every section with that id is dropped, the others kept in
   * order. Uploaded images stay.
   */
  function HandleRemoveSection(f: PageForm, id: int): (r: PageForm)
    ensures r.images == f.images
    ensures |f.sections| == 1 ==> r == f
    ensures |f.sections| != 1 ==>
      && r == f.(sections := r.sections)
      && r.sections == WithoutId(f.sections, id)
      && (forall s :: s in r.sections <==> s in f.sections && s.id != id)
      && (forall s :: multiset(r.sections)[s] == if s.id == id then 0 else multiset(f.sections)[s])
  {
    if |f.sections| == 1 then f
    else
      WithoutIdCounts(f.sections, id);
      f.(sections := WithoutId(f.sections, id))
  }

  /** The fields a `Partial<UploadSection>` may set; `Some(None)` writes `null`/`undefined`. */
  datatype SectionPatch = SectionPatch(
    file: Option<Option<FileRef>>,
    color: Option<string>,
    colorName: Option<string>,
    isUploaded: Option<bool>,
    uploadError: Option<Option<string>>)

  /** `{ ...s, ...patch }`. */
  function ApplyPatch(s: UploadSection, p: SectionPatch): UploadSection {
    s.(file := p.file.GetOr(s.file),
       color := p.color.GetOr(s.color),
       colorName := p.colorName.GetOr(s.colorName),
       isUploaded := p.isUploaded.GetOr(s.isUploaded),
       uploadError := p.uploadError.GetOr(s.uploadError))
  }

  /** The ids of the sections, in order. */
  function Ids(ss: seq<UploadSection>): (r: seq<int>)
    ensures |r| == |ss|
    ensures forall i :: 0 <= i < |ss| ==> r[i] == ss[i].id
  {
    seq(|ss|, i requires 0 <= i < |ss| => ss[i].id)
  }

  /**
   * `updateSection(id, updates)`: every section with that id is patched,
   * every other section is kept, and the list keeps its length and order.
   */
  function UpdateSection(ss: seq<UploadSection>, id: int, p: SectionPatch): (r: seq<UploadSection>)
    ensures |r| == |ss|
    ensures forall i :: 0 <= i < |ss| && ss[i].id != id ==> r[i] == ss[i]
    ensures forall i :: 0 <= i < |ss| && ss[i].id == id ==> r[i] == ApplyPatch(ss[i], p)
    decreases |ss|
  {
    if |ss| == 0 then []
    else
      var head := if ss[0].id == id then ApplyPatch(ss[0], p) else ss[0];
      var rest := UpdateSection(ss[1..], id, p);
      assert forall i :: 1 <= i < |ss| ==> ss[i] == ss[1..][i - 1];
      [head] + rest
  }

  /** A patch never touches ids, and applying the same patch twice is applying it once. */
  lemma UpdateSectionKeepsIdsAndIsIdempotent(ss: seq<UploadSection>, id: int, p: SectionPatch)
    ensures Ids(UpdateSection(ss, id, p)) == Ids(ss)
    ensures UpdateSection(UpdateSection(ss, id, p), id, p) == UpdateSection(ss, id, p)
  {
  }

  // ---------------------------------------------------------------------------
  // Upload

  /** How the storage upload of a section ends. */
  datatype UploadOutcome = Uploaded(url: string) | UploadFailed | UrlFailed

  /** The label stored with an uploaded image: the trimmed name, or the hex's basic name when blank. */
  function FinalColorName(s: UploadSection): (r: string)
    ensures Trim(s.colorName) != "" ==> r == Trim(s.colorName)
    ensures Trim(s.colorName) == "" ==> r == GetBasicColorName(s.color)
    ensures |r| >= 1
  {
    var t := Trim(s.colorName);
    if t != "" then t else GetBasicColorName(s.color)
  }

  /**
   * The basic colour name is used exactly when the typed name is all
   * whitespace; otherwise the label is the non-empty trimmed name.
   */
  lemma FinalColorNameFallsBack(s: UploadSection)
    ensures (forall k :: 0 <= k < |s.colorName| ==> IsJsSpace(s.colorName[k])) ==> FinalColorName(s) == GetBasicColorName(s.color)
    ensures !(forall k :: 0 <= k < |s.colorName| ==> IsJsSpace(s.colorName[k])) ==>
      FinalColorName(s) == Trim(s.colorName) && FinalColorName(s) != ""
  {
    TrimEmptyIffAllSpace(s.colorName);
  }

  /** A typed name with no whitespace at either end is stored as typed. */
  lemma FinalColorNameKeepsTypedName(s: UploadSection)
    requires s.colorName != "" && !IsJsSpace(s.colorName[0]) && !IsJsSpace(s.colorName[|s.colorName| - 1])
    ensures FinalColorName(s) == s.colorName
  {
    TrimNoOp(s.colorName);
  }

  const UploadPatch: SectionPatch := SectionPatch(Some(None), None, None, Some(true), Some(None))

  /**
   * `handleUploadImage(section)`. Without a file nothing changes. A failed
   * upload or URL lookup records an error on the section. A success appends
   * exactly one image, labelled by `FinalColorName` and coded by the
   * section's hex, and marks the section uploaded with its file cleared.
   */
  function HandleUploadImage(f: PageForm, section: UploadSection, outcome: UploadOutcome): (r: PageForm)
    ensures section.file.None? ==> r == f
    ensures r == f.(images := r.images, sections := r.sections)
    ensures |r.sections| == |f.sections|
    ensures (section.file.None? || !outcome.Uploaded?) ==> r.images == f.images
    ensures section.file.Some? && outcome.Uploaded? ==>
      && r.images == f.images + [ProductImage(FinalColorName(section), section.color, outcome.url)]
      && r.sections == UpdateSection(f.sections, section.id, UploadPatch)
    ensures section.file.Some? && outcome.UploadFailed? ==>
      r.sections == UpdateSection(f.sections, section.id, SectionPatch(None, None, None, None, Some(Some("Upload failed"))))
    ensures section.file.Some? && outcome.UrlFailed? ==>
      r.sections == UpdateSection(f.sections, section.id, SectionPatch(None, None, None, None, Some(Some("Failed to get image URL"))))
  {
    if section.file.None? then f
    else
      match outcome
      case UploadFailed =>
        f.(sections := UpdateSection(f.sections, section.id, SectionPatch(None, None, None, None, Some(Some("Upload failed")))))
      case UrlFailed =>
        f.(sections := UpdateSection(f.sections, section.id, SectionPatch(None, None, None, None, Some(Some("Failed to get image URL")))))
      case Uploaded(url) =>
        f.(images := f.images + [ProductImage(FinalColorName(section), section.color, url)],
           sections := UpdateSection(f.sections, section.id, UploadPatch))
  }

  /** After a successful upload the section it came from reads as uploaded, with no file and no error. */
  lemma UploadedSectionIsMarked(f: PageForm, section: UploadSection, url: string, i: nat)
    requires section.file.Some?
    requires i < |f.sections| && f.sections[i].id == section.id
    ensures var s := HandleUploadImage(f, section, Uploaded(url)).sections[i];
            s.isUploaded && s.file.None? && s.uploadError.None? && s.id == section.id
  {
  }

  /**
   * An upload from a section whose colour came from the picker appends an
   * image the product schema accepts whenever the storage URL is valid, so a
   * list of valid images stays valid.
   */
  lemma UploadedImageIsValid(f: PageForm, section: UploadSection, url: string, env: Env)
    requires section.file.Some? && IsPickerColor(section.color) && env.isUrl(url)
    requires ElementIssues(f.images, 0, env) == []
    ensures ElementIssues(HandleUploadImage(f, section, Uploaded(url)).images, 0, env) == []
  {
    var img := ProductImage(FinalColorName(section), section.color, url);
    PickerColorMatchesHex(section.color);
    assert ImageIssues(img, |f.images|, env) == [];
    AppendValidImage(f.images, img, env);
  }

  // ---------------------------------------------------------------------------
  // Submit and reset

  /** `resetForm()`: empty texts, in stock, no images, one red section. */
  function ResetForm(): (r: PageForm)
    ensures r.name == "" && r.description == "" && r.vendor == "" && r.price == ""
    ensures r.brand == "" && r.category == ""
    ensures r.inStock
    ensures r.images == []
    ensures |r.sections| == 1 && r.sections[0].id == 1
    ensures r.sections[0].color == "#ff0000" && r.sections[0].colorName == "Red"
    ensures r.sections[0].file.None? && !r.sections[0].isUploaded && r.sections[0].uploadError.None?
  {
    PageForm("", "", "", "", "", "", true, [], [RedSection()])
  }

  /** The guards that keep `handleSubmit` from calling the server. */
  predicate SubmitBlocked(f: PageForm) {
    f.name == "" || f.price == "" || |f.images| == 0
  }

  /** The payload the page sends: the price as text, every optional field present. */
  function PagePayload(f: PageForm): (v: ProductInput)
    ensures v.price == PriceText(f.price) && v.images == f.images && v.inStock == Some(f.inStock)
    ensures v.name == f.name && v.description == Present(f.description) && v.vendor == Present(f.vendor)
    ensures v.brand == Present(f.brand) && v.category == Present(f.category)
  {
    ProductInput(f.name, Present(f.description), Present(f.vendor), PriceText(f.price),
                 Present(f.brand), Present(f.category), Some(f.inStock), f.images)
  }

  /** Whether the server action was reached or the call threw on the way. */
  datatype CallOutcome = Reached | Threw

  datatype SubmitResult = SubmitResult(form: PageForm, store: Store, called: bool)

  /**
   * `handleSubmit`. A blocked form never calls `addProduct`. Otherwise the
   * payload goes to the action; an error answer or a thrown call keeps the
   * form as it is, and success resets it.
   */
  function HandleSubmit(f: PageForm, env: Env, st: Store, newId: string, now: Instant, call: CallOutcome): (r: SubmitResult)
    ensures SubmitBlocked(f) ==> r == SubmitResult(f, st, false)
    ensures !SubmitBlocked(f) ==> r.called
    ensures call == Threw ==> r.form == f && r.store == st
    ensures !SubmitBlocked(f) && call == Reached ==>
      var (resp, st') := AddProduct(PagePayload(f), env, st, newId, now);
      && r.store == st'
      && (resp.AddSuccess? ==> r.form == ResetForm())
      && (resp.AddError? ==> r.form == f)
  {
    if SubmitBlocked(f) then SubmitResult(f, st, false)
    else if call == Threw then SubmitResult(f, st, true)
    else
      var (resp, st') := AddProduct(PagePayload(f), env, st, newId, now);
      match resp
      case AddError(_) => SubmitResult(f, st', true)
      case AddSuccess(_) => SubmitResult(ResetForm(), st', true)
  }

  /** A product the page submits successfully carries the form's images in the form's order. */
  lemma SubmittedProductKeepsImages(f: PageForm, env: Env, st: Store, newId: string, now: Instant)
    requires !SubmitBlocked(f)
    requires ProductIssues(PagePayload(f), env) == []
    ensures var r := HandleSubmit(f, env, st, newId, now, Reached);
            && r.store.products == st.products + [r.store.products[|st.products|]]
            && r.store.products[|st.products|].images == f.images
            && r.store.products[|st.products|].inStock == f.inStock
            && r.form == ResetForm()
  {
  }

  // ---------------------------------------------------------------------------
  // Section ids

  /** No two sections share an id. */
  predicate UniqueIds(ss: seq<UploadSection>) {
    forall i, j :: 0 <= i < j < |ss| ==> ss[i].id != ss[j].id
  }

  /**
   * Ids of the form "count + 1" collide after a removal: from the reset form,
   * add, remove section 1 and add again, and two sections share id 2;
   * removing id 2 then leaves no section at all.
   */
  lemma AddMoreReusesIds()
    ensures var f0 := ResetForm();
            var f1 := HandleAddMore(f0);
            var f2 := HandleRemoveSection(f1, 1);
            var f3 := HandleAddMore(f2);
            && !UniqueIds(f3.sections)
            && |f3.sections| == 2
            && HandleRemoveSection(f3, 2).sections == []
  {
    var f1 := HandleAddMore(ResetForm());
    assert f1.sections == [RedSection(), BlueSection(2)];
    assert WithoutId([BlueSection(2)], 1) == [BlueSection(2)] + WithoutId([], 1);
    assert WithoutId(f1.sections, 1) == WithoutId([BlueSection(2)], 1);
    var f2 := HandleRemoveSection(f1, 1);
    assert f2.sections == [BlueSection(2)];
    var f3 := HandleAddMore(f2);
    assert f3.sections == [BlueSection(2), BlueSection(2)];
    assert WithoutId(f3.sections, 2) == WithoutId([BlueSection(2)], 2) == WithoutId([], 2);
  }

  /** One more than the largest id in use (1 for an empty list). */
  function NextId(ss: seq<UploadSection>): (r: int)
    ensures forall i :: 0 <= i < |ss| ==> ss[i].id < r
    decreases |ss|
  {
    if |ss| == 0 then 1
    else
      var rest := NextId(ss[1..]);
      assert forall i :: 1 <= i < |ss| ==> ss[i] == ss[1..][i - 1];
      if ss[0].id >= rest then ss[0].id + 1 else rest
  }

  /**
   * `handleAddMore` with a fresh id: the new section's id is above every id
   * in use, so ids stay unique.
   */
  function HandleAddMoreFresh(f: PageForm): (r: PageForm)
    ensures |f.sections| >= MaxSections ==> r == f
    ensures |f.sections| < MaxSections ==>
      && r == f.(sections := r.sections)
      && |r.sections| == |f.sections| + 1
      && r.sections[..|f.sections|] == f.sections
      && r.sections[|f.sections|] == BlueSection(NextId(f.sections))
    ensures UniqueIds(f.sections) ==> UniqueIds(r.sections)
  {
    if |f.sections| >= MaxSections then f
    else f.(sections := f.sections + [BlueSection(NextId(f.sections))])
  }

  /** Unique ids stay unique in the tail. */
  lemma UniqueIdsTail(ss: seq<UploadSection>)
    requires |ss| > 0 && UniqueIds(ss)
    ensures UniqueIds(ss[1..])
    ensures forall x :: x in ss[1..] ==> x.id != ss[0].id
  {
    forall i, j | 0 <= i < j < |ss[1..]| ensures ss[1..][i].id != ss[1..][j].id {
      assert ss[1..][i] == ss[i + 1] && ss[1..][j] == ss[j + 1];
    }
    forall x | x in ss[1..] ensures x.id != ss[0].id {
      var k :| 0 <= k < |ss[1..]| && ss[1..][k] == x;
      assert ss[1..][k] == ss[k + 1];
    }
  }

  /** A section whose id no later section has keeps a list of unique ids unique. */
  lemma UniqueIdsCons(x: UploadSection, rest: seq<UploadSection>)
    requires UniqueIds(rest)
    requires forall j :: 0 <= j < |rest| ==> rest[j].id != x.id
    ensures UniqueIds([x] + rest)
  {
    var l := [x] + rest;
    forall i, j | 0 <= i < j < |l| ensures l[i].id != l[j].id {
      assert l[j] == rest[j - 1];
      if i > 0 {
        assert l[i] == rest[i - 1];
      }
    }
  }

  /** With unique ids, removing a section takes away at most one. */
  lemma {:induction false} WithoutIdRemovesAtMostOne(ss: seq<UploadSection>, id: int)
    requires UniqueIds(ss)
    ensures |WithoutId(ss, id)| >= |ss| - 1
    ensures UniqueIds(WithoutId(ss, id))
    decreases |ss|
  {
    if |ss| > 0 {
      var tail := ss[1..];
      UniqueIdsTail(ss);
      WithoutIdRemovesAtMostOne(tail, id);
      var rest := WithoutId(tail, id);
      if ss[0].id == id {
        assert forall i :: 0 <= i < |tail| ==> tail[i].id != id by {
          forall i | 0 <= i < |tail| ensures tail[i].id != id {
            assert tail[i] in tail;
          }
        }
        assert WithoutId(ss, id) == rest == tail;
      } else {
        forall j | 0 <= j < |rest| ensures rest[j].id != ss[0].id {
          assert rest[j] in rest;
        }
        UniqueIdsCons(ss[0], rest);
        assert WithoutId(ss, id) == [ss[0]] + rest;
      }
    }
  }

  /**
   * With fresh ids the page keeps its promise of at least one section: every
   * form reachable from the reset form by adding, removing and updating
   * sections has unique ids and one to five sections.
   */
  predicate SectionsSound(f: PageForm) {
    UniqueIds(f.sections) && 1 <= |f.sections| <= MaxSections
  }

  lemma ResetIsSound()
    ensures SectionsSound(ResetForm())
  {
  }

  lemma AddMoreFreshKeepsSound(f: PageForm)
    requires SectionsSound(f)
    ensures SectionsSound(HandleAddMoreFresh(f))
  {
  }

  lemma RemoveKeepsSound(f: PageForm, id: int)
    requires SectionsSound(f)
    ensures SectionsSound(HandleRemoveSection(f, id))
  {
    if |f.sections| != 1 {
      WithoutIdRemovesAtMostOne(f.sections, id);
    }
  }

  lemma UploadKeepsSound(f: PageForm, section: UploadSection, outcome: UploadOutcome)
    requires SectionsSound(f)
    ensures SectionsSound(HandleUploadImage(f, section, outcome))
  {
    if section.file.Some? {
      var p := match outcome
        case Uploaded(_) => UploadPatch
        case UploadFailed => SectionPatch(None, None, None, None, Some(Some("Upload failed")))
        case UrlFailed => SectionPatch(None, None, None, None, Some(Some("Failed to get image URL")));
      assert HandleUploadImage(f, section, outcome).sections == UpdateSection(f.sections, section.id, p);
      UpdateSectionKeepsUniqueIds(f.sections, section.id, p);
    }
  }

  /** Patching sections keeps unique ids unique. */
  lemma UpdateSectionKeepsUniqueIds(ss: seq<UploadSection>, id: int, p: SectionPatch)
    requires UniqueIds(ss)
    ensures UniqueIds(UpdateSection(ss, id, p))
  {
    var r := UpdateSection(ss, id, p);
    forall i, j | 0 <= i < j < |r| ensures r[i].id != r[j].id {
      assert r[i].id == ss[i].id && r[j].id == ss[j].id;
    }
  }
}

=== FILE: product_actions.dfy ===
/**
 * The product server actions of actions/product.ts: `addProduct` validates,
 * defaults and writes; `getAllProducts` lists newest first;
 * `getProductById` refuses a malformed id before looking anything up.
 */
module ProductActions {
  import opened Wrappers
  import opened Strings
  import opened Externals
  import opened Db
  import opened Schemas

  datatype AddProductResponse = AddError(error: string) | AddSuccess(product: Product)

  /** The record `db.product.create` writes for validated data. */
  function ProductRecord(d: ProductData, env: Env, id: string, now: Instant): (p: Product)
    requires PriceAcceptable(d.price, env)
    ensures p.price >= 0.0 && PriceNumeric(d.price, env) == Finite(p.price)
    ensures p.description == d.description.OrEmpty() && p.vendor == d.vendor.OrEmpty()
    ensures p.brand == d.brand.OrEmpty() && p.category == d.category.OrEmpty()
    ensures p.name == d.name && p.inStock == d.inStock && p.images == d.images
    ensures p.id == id && p.createdAt == now
  {
    Product(id, d.name, d.description.OrEmpty(), d.vendor.OrEmpty(), PriceNumeric(d.price, env).value,
            d.brand.OrEmpty(), d.category.OrEmpty(), d.inStock, d.images, now)
  }

  /**
   * `addProduct(values)`. Invalid input answers with every issue message
   * joined by ", " and writes nothing. Valid input appends one product whose
   * optional texts default to "", whose `inStock` defaults to true, and whose
   * price is the numeric value of the input; the created record is returned.
   * `newId` and `now` are the id and creation time the database assigns.
   */
  function AddProduct(v: ProductInput, env: Env, st: Store, newId: string, now: Instant): (r: (AddProductResponse, Store))
    ensures r.0.AddError? <==> ProductIssues(v, env) != []
    ensures r.0.AddError? ==> r.0.error == Join(Messages(ProductIssues(v, env)), ", ") && r.1 == st
    ensures r.0.AddSuccess? ==>
      var p := r.0.product;
      && r.1 == st.(products := st.products + [p])
      && p.id == newId && p.createdAt == now
      && p.name == v.name
      && p.description == v.description.OrEmpty()
      && p.vendor == v.vendor.OrEmpty()
      && p.brand == v.brand.OrEmpty()
      && p.category == v.category.OrEmpty()
      && p.inStock == v.inStock.GetOr(true)
      && p.images == v.images
      && p.price >= 0.0 && PriceNumeric(v.price, env) == Finite(p.price)
  {
    match ParseProduct(v, env)
    case Failure(issues) => (AddError(Join(Messages(issues), ", ")), st)
    case Success(d) =>
      var p := ProductRecord(d, env, newId, now);
      (AddSuccess(p), st.(products := st.products + [p]))
  }

  /** With a valid name and price but no images, the answer is exactly the image-count message. */
  lemma AddProductWithoutImages(v: ProductInput, env: Env, st: Store, newId: string, now: Instant)
    requires |v.name| >= 1 && PriceAcceptable(v.price, env)
    requires v.images == []
    ensures AddProduct(v, env, st, newId, now) == (AddError(AtLeastOneImage), st)
  {
    assert ProductIssues(v, env) == [Issue([Key("images")], AtLeastOneImage)];
  }

  /** A price that is negative or not finite is refused and nothing is written. */
  lemma AddProductRejectsBadPrice(v: ProductInput, env: Env, st: Store, newId: string, now: Instant)
    requires !PriceNumeric(v.price, env).IsFinite() || PriceNumeric(v.price, env).value < 0.0
    ensures AddProduct(v, env, st, newId, now).0.AddError?
    ensures AddProduct(v, env, st, newId, now).1 == st
  {
  }

  // ---------------------------------------------------------------------------
  // getProductById

  /** `findUnique({ where: { id } })`: the product with that id, if any. */
  function FindById(ps: seq<Product>, id: string): (r: Option<Product>)
    ensures r.Some? ==> r.value in ps && r.value.id == id
    ensures r.None? <==> forall i :: 0 <= i < |ps| ==> ps[i].id != id
    decreases |ps|
  {
    if |ps| == 0 then None
    else if ps[0].id == id then Some(ps[0])
    else
      var r := FindById(ps[1..], id);
      assert forall i :: 1 <= i < |ps| ==> ps[i] == ps[1..][i - 1];
      r
  }

  /**
   * `getProductById(id)`: null for an id that is not a well-formed ObjectId,
   * whatever the store holds; otherwise the stored product with that id.
   */
  function GetProductById(id: string, env: Env, st: Store): (r: Option<Product>)
    ensures !env.isObjectId(id) ==> r == None
    ensures r.Some? ==> r.value in st.products && r.value.id == id
    ensures env.isObjectId(id) && (exists i :: 0 <= i < |st.products| && st.products[i].id == id) ==> r.Some?
  {
    if !env.isObjectId(id) then None else FindById(st.products, id)
  }

  /**
   * A product just added can be fetched back by its id, with the numeric
   * price and the defaults the write applied.
   */
  lemma AddThenGet(v: ProductInput, env: Env, st: Store, newId: string, now: Instant)
    requires ProductIssues(v, env) == []
    requires env.isObjectId(newId)
    requires forall i :: 0 <= i < |st.products| ==> st.products[i].id != newId
    ensures var (resp, st') := AddProduct(v, env, st, newId, now);
            && resp.AddSuccess?
            && GetProductById(newId, env, st') == Some(resp.product)
            && resp.product.inStock == v.inStock.GetOr(true)
  {
    var (resp, st') := AddProduct(v, env, st, newId, now);
    var found := GetProductById(newId, env, st');
    assert st'.products[|st.products|] == resp.product;
    assert found.Some?;
    assert found.value in st'.products;
    assert found.value == resp.product by {
      var k :| 0 <= k < |st'.products| && st'.products[k] == found.value;
      if k < |st.products| {
        assert st'.products[k] == st.products[k];
      }
    }
  }

  // ---------------------------------------------------------------------------
  // getAllProducts

  /** Newest first: creation times never increase along the list. */
  predicate NewestFirst(ps: seq<Product>) {
    forall i, j :: 0 <= i < j < |ps| ==> ps[i].createdAt >= ps[j].createdAt
  }

  /** Places `p` into a newest-first list. */
  function InsertByCreatedAt(p: Product, ps: seq<Product>): (r: seq<Product>)
    requires NewestFirst(ps)
    ensures NewestFirst(r)
    ensures multiset(r) == multiset(ps) + multiset{p}
    ensures forall x :: x in r ==> x == p || x in ps
    decreases |ps|
  {
    if |ps| == 0 || p.createdAt >= ps[0].createdAt then
      assert forall x :: x in [p] + ps ==> x == p || x in ps;
      [p] + ps
    else
      var rest := InsertByCreatedAt(p, ps[1..]);
      assert ps == [ps[0]] + ps[1..];
      assert forall x :: x in rest ==> x.createdAt <= ps[0].createdAt;
      [ps[0]] + rest
  }

  /**
   * `getAllProducts()`: every stored product, each as often as it is stored,
   * ordered by `createdAt` descending. Products created at the same instant
   * keep their stored order here; the database leaves that order open.
   */
  function GetAllProducts(st: Store): (r: seq<Product>)
    ensures NewestFirst(r)
    ensures multiset(r) == multiset(st.products)
  {
    SortNewestFirst(st.products)
  }

  function SortNewestFirst(ps: seq<Product>): (r: seq<Product>)
    ensures NewestFirst(r)
    ensures multiset(r) == multiset(ps)
    decreases |ps|
  {
    if |ps| == 0 then []
    else
      assert ps == [ps[0]] + ps[1..];
      InsertByCreatedAt(ps[0], SortNewestFirst(ps[1..]))
  }
}

=== FILE: product_card.dfy ===
/**
 * The client decisions of components/product/productCard.tsx: the checks
 * before buying with escrow, the request it sends, how it presents the
 * escrow service's refusal, and which picture the card shows.
 */
module ProductCard {
  import opened Wrappers
  import opened Strings
  import opened Externals
  import opened Db
  import opened Schemas
  import opened ProductActions

  /** The fields of a product the card reads. */
  datatype CardProduct = CardProduct(
    id: string,
    name: string,
    description: Option<string>,
    price: real,
    images: seq<string>)

  /** The signed-in user as `useCurrentUser` gives it. */
  datatype CurrentUser = CurrentUser(email: Option<string>)

  datatype EscrowRequest = EscrowRequest(
    productName: string,
    amount: real,
    currency: string,
    description: Option<string>,
    buyerEmail: string)

  /** What pressing "Buy with Escrow" does first. */
  datatype BuyAction = RedirectTo(path: string) | AlertMissingEmail | SendRequest(body: EscrowRequest)

  const LoginPath: string := "/auth/login"

  /**
   * `handleBuyWithEscrow` up to the request: no user goes to the login page,
   * a user without an email is alerted, and only a user with an email sends
   * the request, which carries the product's name, price and description, the
   * currency "USD" and that email.
   */
  function HandleBuyWithEscrow(user: Option<CurrentUser>, p: CardProduct): (r: BuyAction)
    ensures user.None? ==> r == RedirectTo(LoginPath)
    ensures user.Some? && !Truthy(user.value.email) ==> r == AlertMissingEmail
    ensures r.SendRequest? <==> user.Some? && Truthy(user.value.email)
    ensures r.SendRequest? ==>
      && r.body.productName == p.name
      && r.body.amount == p.price
      && r.body.currency == "USD"
      && r.body.description == p.description
      && r.body.buyerEmail == user.value.email.value
      && r.body.buyerEmail != ""
  {
    match user
    case None => RedirectTo(LoginPath)
    case Some(u) =>
      if !Truthy(u.email) then AlertMissingEmail
      else SendRequest(EscrowRequest(p.name, p.price, "USD", p.description, u.email.value))
  }

  /** A stored product as the home page hands it to the card. */
  function CardOf(p: Product): (c: CardProduct)
    ensures c.id == p.id && c.name == p.name && c.description == Some(p.description) && c.price == p.price
    ensures |c.images| == |p.images| && forall i :: 0 <= i < |p.images| ==> c.images[i] == p.images[i].image
  {
    CardProduct(p.id, p.name, Some(p.description), p.price, seq(|p.images|, i requires 0 <= i < |p.images| => p.images[i].image))
  }

  /**
   * A product `addProduct` has just written shows its first submitted image,
   * and buying it asks the escrow service for the non-negative price the
   * action stored.
   */
  lemma AddedProductOnCard(v: ProductInput, env: Env, st: Store, newId: string, now: Instant, email: string)
    requires ProductIssues(v, env) == []
    requires email != ""
    ensures var resp := AddProduct(v, env, st, newId, now).0;
            && resp.AddSuccess?
            && CardPictureOf(CardOf(resp.product)) == Picture(v.images[0].image)
            && var act := HandleBuyWithEscrow(Some(CurrentUser(Some(email))), CardOf(resp.product));
               && act.SendRequest?
               && act.body.amount >= 0.0
               && PriceNumeric(v.price, env) == Finite(act.body.amount)
               && act.body.buyerEmail == email
  {
    var resp := AddProduct(v, env, st, newId, now).0;
    assert |v.images| >= 1;
    assert CardOf(resp.product).images[0] == v.images[0].image;
  }

  // ---------------------------------------------------------------------------
  // The reply

  datatype ErrorDetail = ErrorDetail(field: string, message: string)

  /**
   * `result.error.details`: absent or falsy, a list of field errors, or any
   * other value, which is shown as its `JSON.stringify(details, null, 2)` text.
   */
  datatype Details = NoDetails | DetailList(items: seq<ErrorDetail>) | DetailOther(json: string)

  datatype EscrowReply = Created(escrowUrl: string) | Refused(message: string, details: Details) | NetworkError

  datatype ReplyEffect = OpenWindow(url: string) | Alert(text: string)

  /** One "field: message" line per detail, in order. */
  function DetailLines(items: seq<ErrorDetail>): (r: seq<string>)
    ensures |r| == |items|
    ensures forall i :: 0 <= i < |items| ==> r[i] == items[i].field + ": " + items[i].message
  {
    seq(|items|, i requires 0 <= i < |items| => items[i].field + ": " + items[i].message)
  }

  /**
   * The details text of the alert: a list gives its lines joined by line
   * breaks, starting with the first detail's line; any other value gives its
   * JSON text.
   */
  function FormatDetails(d: Details): (r: string)
    requires !d.NoDetails?
    ensures d.DetailOther? ==> r == d.json
    ensures d.DetailList? && |d.items| == 0 ==> r == ""
    ensures d.DetailList? && |d.items| > 0 ==> StartsWith(r, d.items[0].field + ": " + d.items[0].message)
    ensures d.DetailList? ==> r == Join(DetailLines(d.items), "\n")
  {
    match d
    case DetailList(items) => Join(DetailLines(items), "\n")
    case DetailOther(json) => json
  }

  /**
   * With no line break inside any field or message, the details text splits
   * back into exactly one "field: message" line per detail.
   */
  lemma DetailLinesRoundTrip(items: seq<ErrorDetail>)
    requires |items| > 0
    requires forall i :: 0 <= i < |items| ==> '\n' !in items[i].field && '\n' !in items[i].message
    ensures Split(FormatDetails(DetailList(items)), '\n') == DetailLines(items)
  {
    var lines := DetailLines(items);
    forall i | 0 <= i < |lines| ensures '\n' !in lines[i] {
      assert lines[i] == items[i].field + ": " + items[i].message;
    }
    SplitJoin(lines, '\n');
  }

  const NetworkErrorMessage: string := "Network error creating escrow. Please check your connection and try again."

  /**
   * The reply handling: a created escrow opens its page; a refusal alerts
   * its message, followed by the details when there are any; a failed call
   * alerts the network message.
   */
  function HandleReply(reply: EscrowReply): (r: ReplyEffect)
    ensures r.OpenWindow? <==> reply.Created?
    ensures reply.Created? ==> r.url == reply.escrowUrl
    ensures reply.Refused? && reply.details.NoDetails? ==> r == Alert("Failed to create escrow: " + reply.message)
    ensures reply.Refused? && !reply.details.NoDetails? ==>
      r == Alert("Failed to create escrow:\n" + reply.message + "\n\nDetails:\n" + FormatDetails(reply.details))
    ensures reply.NetworkError? ==> r == Alert(NetworkErrorMessage)
  {
    match reply
    case Created(url) => OpenWindow(url)
    case Refused(message, NoDetails) => Alert("Failed to create escrow: " + message)
    case Refused(message, details) =>
      Alert("Failed to create escrow:\n" + message + "\n\nDetails:\n" + FormatDetails(details))
    case NetworkError => Alert(NetworkErrorMessage)
  }

  /**
   * A refusal with field errors reads back line by line: the heading, the
   * message, a blank line, "Details:", then one "field: message" line per
   * detail, provided none of these texts holds a line break itself.
   */
  lemma {:induction false} RefusalAlertLines(message: string, items: seq<ErrorDetail>)
    requires |items| > 0
    requires '\n' !in message
    requires forall i :: 0 <= i < |items| ==> '\n' !in items[i].field && '\n' !in items[i].message
    ensures HandleReply(Refused(message, DetailList(items))).Alert?
    ensures Split(HandleReply(Refused(message, DetailList(items))).text, '\n')
            == ["Failed to create escrow:", message, "", "Details:"] + DetailLines(items)
  {
    var lines := DetailLines(items);
    var body := Join(lines, "\n");
    var all := ["Failed to create escrow:", message, "", "Details:"] + lines;
    JoinCons("Details:", lines, "\n");
    assert ["Details:"] + lines == all[3..];
    JoinCons("", all[3..], "\n");
    assert [""] + all[3..] == all[2..];
    JoinCons(message, all[2..], "\n");
    assert [message] + all[2..] == all[1..];
    JoinCons("Failed to create escrow:", all[1..], "\n");
    assert ["Failed to create escrow:"] + all[1..] == all;
    assert Join(all, "\n") == "Failed to create escrow:\n" + message + "\n\nDetails:\n" + body;
    forall i | 0 <= i < |all| ensures '\n' !in all[i] {
      if i >= 4 {
        assert all[i] == lines[i - 4] == items[i - 4].field + ": " + items[i - 4].message;
      }
    }
    SplitJoin(all, '\n');
  }

  // ---------------------------------------------------------------------------
  // The picture

  datatype CardPicture = Picture(src: string) | Placeholder(text: string)

  /** The card shows the first image when there is one, the "No image" placeholder otherwise. */
  function CardPictureOf(p: CardProduct): (r: CardPicture)
    ensures r.Picture? <==> |p.images| > 0
    ensures r.Picture? ==> r.src == p.images[0]
    ensures r.Placeholder? ==> r.text == "No image"
  {
    if |p.images| > 0 then Picture(p.images[0]) else Placeholder("No image")
  }
}

=== FILE: product_form.dfy ===
/**
 * The simpler product form of app/products/new/Product-form.tsx: one colour
 * picker and one file at a time, each upload appending one colour variant,
 * and a submit that sends the numeric price to `addProduct`.
 */
module ProductForm {
  import opened Wrappers
  import opened Strings
  import opened Externals
  import opened Db
  import opened Schemas
  import opened ProductActions
  import NewProductPage

  datatype FormState = FormState(
    name: string,
    description: string,
    vendor: string,
    price: string,
    brand: string,
    category: string,
    inStock: bool,
    selectedColor: string,
    currentImageFile: Option<NewProductPage.FileRef>,
    images: seq<ProductImage>)

  /** The state the form mounts with: red selected, in stock, everything else empty. */
  function InitialForm(): (r: FormState)
    ensures r.name == "" && r.description == "" && r.vendor == "" && r.price == ""
    ensures r.brand == "" && r.category == ""
    ensures r.selectedColor == "#ff0000" && r.inStock && r.images == [] && r.currentImageFile.None?
  {
    FormState("", "", "", "", "", "", true, "#ff0000", None, [])
  }

  /**
   * `getColorName(hex)`: one of the five colour names for an exact,
   * case-sensitive match, "Custom" otherwise.
   */
  function GetColorName(hex: string): (r: string)
    ensures NewProductPage.IsColorLabel(r)
    ensures r == "Custom" <==> !NewProductPage.IsBasicHex(hex)
    ensures r == (if hex in NewProductPage.BasicColorNames then NewProductPage.BasicColorNames[hex] else "Custom")
  {
    if hex == "#ff0000" then "Red"
    else if hex == "#0000ff" then "Blue"
    else if hex == "#00ff00" then "Green"
    else if hex == "#000000" then "Black"
    else if hex == "#ffffff" then "White"
    else "Custom"
  }

  /**
   * The two colour tables agree: the page's case-insensitive lookup is this
   * form's exact lookup applied to the lower-cased hex.
   */
  lemma ColorTablesAgree(hex: string)
    ensures NewProductPage.GetBasicColorName(hex) == GetColorName(ToLower(hex))
  {
  }

  /** The exact lookup differs from the case-insensitive one on upper-case input. */
  lemma ColorNameIsCaseSensitive()
    ensures GetColorName("#FF0000") == "Custom"
    ensures NewProductPage.GetBasicColorName("#FF0000") == "Red"
  {
    assert ToLower("#FF0000") == "#ff0000";
  }

  /** How `uploadBytes` followed by `getDownloadURL` ends. */
  datatype StoreOutcome = Stored(url: string) | StoreFailed

  /**
   * `handleAddColorImage`. Without a file nothing changes; a failed upload
   * changes nothing either; a stored file appends exactly one variant for the
   * selected colour and clears the current file.
   */
  function HandleAddColorImage(f: FormState, outcome: StoreOutcome): (r: FormState)
    ensures f.currentImageFile.None? || outcome.StoreFailed? ==> r == f
    ensures f.currentImageFile.Some? && outcome.Stored? ==>
      && r == f.(images := r.images, currentImageFile := None)
      && r.images == f.images + [ProductImage(GetColorName(f.selectedColor), f.selectedColor, outcome.url)]
  {
    if f.currentImageFile.None? then f
    else
      match outcome
      case StoreFailed => f
      case Stored(url) =>
        f.(images := f.images + [ProductImage(GetColorName(f.selectedColor), f.selectedColor, url)],
           currentImageFile := None)
  }

  /**
   * A variant added for a picker colour passes the image schema whenever the
   * storage URL is valid, so a list of valid variants stays valid.
   */
  lemma AddedVariantIsValid(f: FormState, url: string, env: Env)
    requires f.currentImageFile.Some? && NewProductPage.IsPickerColor(f.selectedColor) && env.isUrl(url)
    requires ElementIssues(f.images, 0, env) == []
    ensures ElementIssues(HandleAddColorImage(f, Stored(url)).images, 0, env) == []
  {
    var img := ProductImage(GetColorName(f.selectedColor), f.selectedColor, url);
    NewProductPage.PickerColorMatchesHex(f.selectedColor);
    assert ImageIssues(img, |f.images|, env) == [];
    AppendValidImage(f.images, img, env);
  }

  /** The guard of `handleSubmit`. */
  predicate SubmitBlocked(f: FormState) {
    f.name == "" || f.price == "" || |f.images| == 0
  }

  /** The payload this form sends: the price as `Number(price)`. */
  function Payload(f: FormState, env: Env): (v: ProductInput)
    ensures v.price == PriceNumber(env.toNumber(f.price)) && v.images == f.images && v.name == f.name
    ensures v.inStock == Some(f.inStock)
    ensures v.description == Present(f.description) && v.vendor == Present(f.vendor)
    ensures v.brand == Present(f.brand) && v.category == Present(f.category)
  {
    ProductInput(f.name, Present(f.description), Present(f.vendor), PriceNumber(env.toNumber(f.price)),
                 Present(f.brand), Present(f.category), Some(f.inStock), f.images)
  }

  /** The form after a submit it counts as successful: texts and images cleared, the rest kept. */
  function Cleared(f: FormState): (r: FormState)
    ensures r.name == "" && r.description == "" && r.price == "" && r.vendor == ""
    ensures r.brand == "" && r.category == "" && r.images == []
    ensures r.inStock == f.inStock && r.selectedColor == f.selectedColor
    ensures r.currentImageFile == f.currentImageFile
  {
    f.(name := "", description := "", price := "", vendor := "", brand := "", category := "", images := [])
  }

  datatype SubmitResult = SubmitResult(form: FormState, store: Store, called: bool)

  /**
   * `handleSubmit` as written. A blocked form never calls the server. A call
   * that throws keeps the form; a call that returns, whatever it returns,
   * clears it.
   */
  function HandleSubmit(f: FormState, env: Env, st: Store, newId: string, now: Instant,
                        call: NewProductPage.CallOutcome): (r: SubmitResult)
    ensures SubmitBlocked(f) ==> r == SubmitResult(f, st, false)
    ensures !SubmitBlocked(f) ==> r.called
    ensures !SubmitBlocked(f) && call == NewProductPage.Threw ==> r.form == f && r.store == st
    ensures !SubmitBlocked(f) && call == NewProductPage.Reached ==>
      && r.form == Cleared(f)
      && r.store == AddProduct(Payload(f, env), env, st, newId, now).1
  {
    if SubmitBlocked(f) then SubmitResult(f, st, false)
    else if call == NewProductPage.Threw then SubmitResult(f, st, true)
    else
      var (_, st') := AddProduct(Payload(f, env), env, st, newId, now);
      SubmitResult(Cleared(f), st', true)
  }

  /**
   * The error answer of `addProduct` is ignored: a form whose price is "-1"
   * passes the client guard, is refused by the server, writes nothing, and is
   * cleared all the same.
   */
  lemma SubmitClearsOnServerError(env: Env, st: Store, newId: string, now: Instant, img: ProductImage)
    requires env.toNumber("-1") == Finite(-1.0)
    ensures var f := InitialForm().(name := "A", price := "-1", images := [img]);
            var r := HandleSubmit(f, env, st, newId, now, NewProductPage.Reached);
            && AddProduct(Payload(f, env), env, st, newId, now).0.AddError?
            && r.store == st
            && r.form == Cleared(f)
            && r.form != f
  {
  }

  /**
   * `handleSubmit` with the answer checked, as the page in
   * app/products/new/page.tsx does: the form is cleared exactly when a
   * product was written.
   */
  function HandleSubmitChecked(f: FormState, env: Env, st: Store, newId: string, now: Instant,
                               call: NewProductPage.CallOutcome): (r: SubmitResult)
    ensures SubmitBlocked(f) ==> r == SubmitResult(f, st, false)
    ensures !SubmitBlocked(f) ==> r.called
    ensures r.form == Cleared(f) || r.form == f
    ensures r.store == st || r.store == AddProduct(Payload(f, env), env, st, newId, now).1
    ensures (r.form == Cleared(f) && r.form != f) ==> |r.store.products| == |st.products| + 1
    ensures |r.store.products| == |st.products| + 1 ==> r.form == Cleared(f)
  {
    if SubmitBlocked(f) then SubmitResult(f, st, false)
    else if call == NewProductPage.Threw then SubmitResult(f, st, true)
    else
      var (resp, st') := AddProduct(Payload(f, env), env, st, newId, now);
      match resp
      case AddError(_) => SubmitResult(f, st', true)
      case AddSuccess(_) => SubmitResult(Cleared(f), st', true)
  }
}

=== FILE: register_action.dfy ===
/**
 * The `Register` server action of actions/register.ts: validate, refuse a
 * taken email, create the user, issue a verification token and try to mail
 * it. A mail failure is reported but does not undo the created user.
 */
module RegisterAction {
  import opened Wrappers
  import opened Externals
  import opened Db
  import opened Schemas

  /**
   * What `sendVerificationEmail` does: deliver, find the transport
   * unreachable (lib/mail.ts logs this and returns normally), or throw while
   * sending.
   */
  datatype MailOutcome = Delivered | TransportUnavailable | SendFailed

  datatype RegisterResponse = RegisterError(error: string) | RegisterSuccess(success: string)

  const InvalidFields: string := "Invalid fields!"
  const EmailAlreadyInUse: string := "Email already in use!"
  const VerificationEmailSent: string := "Verification email sent"
  const VerificationEmailFailed: string := "Failed to send verification email"

  /** The row `db.user.create` writes; role and two-factor flag take the schema defaults. */
  function NewUser(v: RegisterInput, env: Env, id: UserId): User {
    User(id, Some(v.name), Some(v.email), Some(env.hash(v.password)), None, USER, false)
  }

  /** `db.user.create`: one more user row, every other part of the store as it was. */
  function CreateUser(st: Store, u: User): (st': Store)
    requires u.id !in st.users
    ensures st'.users.Keys == st.users.Keys + {u.id}
    ensures |st'.users| == |st.users| + 1
    ensures st'.users[u.id] == u
    ensures forall id :: id in st.users ==> st'.users[id] == st.users[id]
    ensures st' == st.(users := st'.users)
  {
    var users := st.users[u.id := u];
    assert users.Keys == st.users.Keys + {u.id};
    st.(users := users)
  }

  /** `generateVerificationToken(email)`: the new token replaces any earlier one for that email. */
  function IssueVerificationToken(st: Store, t: VerificationToken): (st': Store)
    ensures st'.verificationTokens.Keys == st.verificationTokens.Keys + {t.email}
    ensures st'.verificationTokens[t.email] == t
    ensures forall e :: e in st.verificationTokens && e != t.email ==> st'.verificationTokens[e] == st.verificationTokens[e]
    ensures st' == st.(verificationTokens := st'.verificationTokens)
  {
    st.(verificationTokens := st.verificationTokens[t.email := t])
  }

  /**
   * `Register(values)`. `newId` is the id the database assigns the new user;
   * `token` and `expires` are what `generateVerificationToken` draws, and the
   * token replaces any earlier one for the same email.
   */
  function Register(v: RegisterInput, env: Env, st: Store, newId: UserId, token: string, expires: Instant,
                    mail: MailOutcome): (r: (RegisterResponse, Store))
    requires newId !in st.users
    ensures RegisterIssues(v, env) != [] ==> r == (RegisterError(InvalidFields), st)
    ensures RegisterIssues(v, env) == [] && EmailInUse(st, v.email) ==> r == (RegisterError(EmailAlreadyInUse), st)
    ensures RegisterIssues(v, env) == [] && !EmailInUse(st, v.email) ==>
      var st' := r.1;
      && st'.users.Keys == st.users.Keys + {newId}
      && |st'.users| == |st.users| + 1
      && (forall id :: id in st.users ==> st'.users[id] == st.users[id])
      && st'.users[newId].name == Some(v.name)
      && st'.users[newId].email == Some(v.email)
      && st'.users[newId].password == Some(env.hash(v.password))
      && st'.users[newId].emailVerified == None
      && st'.verificationTokens.Keys == st.verificationTokens.Keys + {v.email}
      && st'.verificationTokens[v.email] == VerificationToken(v.email, token, expires)
      && (forall e :: e in st.verificationTokens && e != v.email ==> st'.verificationTokens[e] == st.verificationTokens[e])
      && st'.accounts == st.accounts
      && st'.twoFactorConfirmations == st.twoFactorConfirmations
      && st'.products == st.products
      && (r.0 == RegisterError(VerificationEmailFailed) <==> mail == SendFailed)
      && (r.0 == RegisterSuccess(VerificationEmailSent) <==> mail != SendFailed)
  {
    if RegisterIssues(v, env) != [] then (RegisterError(InvalidFields), st)
    else if EmailInUse(st, v.email) then (RegisterError(EmailAlreadyInUse), st)
    else
      var created := CreateUser(st, NewUser(v, env, newId));
      var tokened := IssueVerificationToken(created, VerificationToken(v.email, token, expires));
      match mail
      case SendFailed => (RegisterError(VerificationEmailFailed), tokened)
      case _ => (RegisterSuccess(VerificationEmailSent), tokened)
  }

  /** Adding a user under its own id, with an email nobody has, keeps the store well formed. */
  lemma CreateUserPreservesWellFormed(st: Store, u: User)
    requires WellFormed(st)
    requires u.id !in st.users
    requires u.email.Some? && !EmailInUse(st, u.email.value)
    ensures WellFormed(CreateUser(st, u))
  {
    var st' := CreateUser(st, u);
    forall id | id in st'.users ensures st'.users[id].id == id {
      if id != u.id {
        assert st'.users[id] == st.users[id];
      }
    }
    forall id, id' | id in st'.users && id' in st'.users && id != id' && st'.users[id].email.Some?
      ensures st'.users[id].email != st'.users[id'].email
    {
      if id == u.id {
        assert st'.users[id'] == st.users[id'];
      } else if id' == u.id {
        assert st'.users[id] == st.users[id];
      } else {
        assert st'.users[id] == st.users[id] && st'.users[id'] == st.users[id'];
      }
    }
  }

  /** Issuing a token under its own email keeps the store well formed. */
  lemma IssueVerificationTokenPreservesWellFormed(st: Store, t: VerificationToken)
    requires WellFormed(st)
    ensures WellFormed(IssueVerificationToken(st, t))
  {
  }

  /** Registration keeps the store well formed; in particular emails stay unique. */
  lemma RegisterPreservesWellFormed(v: RegisterInput, env: Env, st: Store, newId: UserId, token: string,
                                    expires: Instant, mail: MailOutcome)
    requires WellFormed(st)
    requires newId !in st.users
    ensures WellFormed(Register(v, env, st, newId, token, expires, mail).1)
  {
    if RegisterIssues(v, env) == [] && !EmailInUse(st, v.email) {
      var u := NewUser(v, env, newId);
      var created := CreateUser(st, u);
      CreateUserPreservesWellFormed(st, u);
      IssueVerificationTokenPreservesWellFormed(created, VerificationToken(v.email, token, expires));
      assert Register(v, env, st, newId, token, expires, mail).1
          == IssueVerificationToken(created, VerificationToken(v.email, token, expires));
    }
  }

  /**
   * Registering one email twice creates one user: the second attempt is
   * refused as a duplicate and leaves the store as the first one left it,
   * whatever happened to the first verification email.
   */
  lemma RegisterSameEmailTwice(v: RegisterInput, env: Env, st: Store, id1: UserId, id2: UserId,
                               t1: string, t2: string, e1: Instant, e2: Instant, m1: MailOutcome, m2: MailOutcome)
    requires RegisterIssues(v, env) == []
    requires id1 !in st.users && id2 !in st.users && id1 != id2
    ensures var st1 := Register(v, env, st, id1, t1, e1, m1).1;
            && id2 !in st1.users
            && Register(v, env, st1, id2, t2, e2, m2) == (RegisterError(EmailAlreadyInUse), st1)
            && |st1.users| <= |st.users| + 1
  {
    var st1 := Register(v, env, st, id1, t1, e1, m1).1;
    if !EmailInUse(st, v.email) {
      assert st1.users[id1].email == Some(v.email);
      assert EmailInUse(st1, v.email);
    }
  }
}

=== FILE: schemas.dfy ===
/**
 * The zod schemas of schemas/index.ts as issue-producing functions. A
 * schema accepts its input exactly when its issue list is empty; each issue
 * carries the path and the message zod would report, in zod's order (the
 * object's fields in declaration order, an array's length check before its
 * elements, refinements after the fields).
 */
module Schemas {
  import opened Wrappers
  import opened Strings
  import opened Externals
  import opened Db

  datatype PathKey = Key(name: string) | Index(i: nat)

  datatype Issue = Issue(path: seq<PathKey>, message: string)

  /** The messages of a list of issues, in order. */
  function Messages(issues: seq<Issue>): (r: seq<string>)
    ensures |r| == |issues|
    ensures forall i :: 0 <= i < |issues| ==> r[i] == issues[i].message
  {
    seq(|issues|, i requires 0 <= i < |issues| => issues[i].message)
  }

  /** Some issue in the list has this path and message. */
  predicate Reports(issues: seq<Issue>, path: seq<PathKey>, message: string) {
    exists i :: 0 <= i < |issues| && issues[i] == Issue(path, message)
  }

  /** zod's own message for a failed `.min(6)` on a string. */
  const MinSixDefault: string := "String must contain at least 6 character(s)"
  /** zod's own message for a failed `.email()`. */
  const InvalidEmailDefault: string := "Invalid email"
  /** zod's own message for a value outside an enum. */
  const InvalidEnumDefault: string := "Invalid enum value. Expected 'ADMIN' | 'USER'"
  /** zod's own message when no member of a union accepts the value. */
  const InvalidUnionDefault: string := "Invalid input"

  /** One issue on `field` when `bad` holds, none otherwise. */
  function Check(bad: bool, field: string, message: string): (r: seq<Issue>)
    ensures bad <==> r == [Issue([Key(field)], message)]
    ensures !bad <==> r == []
  {
    if bad then [Issue([Key(field)], message)] else []
  }

  // ---------------------------------------------------------------------------
  // SettingsSchema

  datatype SettingsInput = SettingsInput(
    name: Option<string>,
    isTwoFactorEnabled: Option<bool>,
    role: string,
    email: Option<string>,
    password: Option<string>,
    newPassword: Option<string>)

  predicate IsRoleName(s: string) {
    s == "ADMIN" || s == "USER"
  }

  /** An optional string field with a `.min(6)` fails only when present and short. */
  predicate ShortOptional(o: Option<string>) {
    o.Some? && |o.value| < 6
  }

  const NewPasswordRequired: string := "New password is required!"
  const PasswordRequired: string := "Password is required!"

  /** The refinement pair: a current password needs a new one, and a new one needs the current one. */
  function PasswordPairIssues(v: SettingsInput): (r: seq<Issue>)
    ensures r == [] <==> (Truthy(v.password) <==> Truthy(v.newPassword))
    ensures Truthy(v.password) && !Truthy(v.newPassword) ==> r == [Issue([Key("newPassword")], NewPasswordRequired)]
    ensures Truthy(v.newPassword) && !Truthy(v.password) ==> r == [Issue([Key("password")], PasswordRequired)]
  {
    Check(Truthy(v.password) && !Truthy(v.newPassword), "newPassword", NewPasswordRequired)
    + Check(Truthy(v.newPassword) && !Truthy(v.password), "password", PasswordRequired)
  }

  /**
   * `SettingsSchema`. A role outside the enum aborts the object parse, so the
   * refinements do not run; a short password only marks it dirty, so they do.
   */
  function SettingsIssues(v: SettingsInput, env: Env): (r: seq<Issue>)
    ensures IsRoleName(v.role) ==> forall i :: 0 <= i < |PasswordPairIssues(v)| ==> PasswordPairIssues(v)[i] in r
    ensures r == [] <==>
      && IsRoleName(v.role)
      && (v.email.Some? ==> env.isEmail(v.email.value))
      && !ShortOptional(v.password)
      && !ShortOptional(v.newPassword)
      && (Truthy(v.password) <==> Truthy(v.newPassword))
  {
    var fields :=
      Check(!IsRoleName(v.role), "role", InvalidEnumDefault)
      + Check(v.email.Some? && !env.isEmail(v.email.value), "email", InvalidEmailDefault)
      + Check(ShortOptional(v.password), "password", MinSixDefault)
      + Check(ShortOptional(v.newPassword), "newPassword", MinSixDefault);
    if !IsRoleName(v.role) then fields else fields + PasswordPairIssues(v)
  }

  /** A password without a new password is reported on `newPassword`, whatever else is wrong. */
  lemma SettingsNeedsNewPassword(v: SettingsInput, env: Env)
    requires IsRoleName(v.role)
    requires Truthy(v.password) && !Truthy(v.newPassword)
    ensures Reports(SettingsIssues(v, env), [Key("newPassword")], NewPasswordRequired)
    ensures !Reports(SettingsIssues(v, env), [Key("password")], PasswordRequired)
  {
    var r := SettingsIssues(v, env);
    assert PasswordPairIssues(v)[0] in r;
  }

  /** A new password without the current one is reported on `password`, whatever else is wrong. */
  lemma SettingsNeedsPassword(v: SettingsInput, env: Env)
    requires IsRoleName(v.role)
    requires Truthy(v.newPassword) && !Truthy(v.password)
    ensures Reports(SettingsIssues(v, env), [Key("password")], PasswordRequired)
    ensures !Reports(SettingsIssues(v, env), [Key("newPassword")], NewPasswordRequired)
  {
    var r := SettingsIssues(v, env);
    assert PasswordPairIssues(v)[0] in r;
  }

  // ---------------------------------------------------------------------------
  // LoginSchema and RegisterSchema

  datatype LoginInput = LoginInput(email: string, password: string, code: Option<string>)

  /** `LoginSchema`: an email and a non-empty password; the two-factor code is free. */
  function LoginIssues(v: LoginInput, env: Env): (r: seq<Issue>)
    ensures r == [] <==> env.isEmail(v.email) && |v.password| >= 1
    ensures !env.isEmail(v.email) ==> Reports(r, [Key("email")], "Email is required")
    ensures |v.password| < 1 ==> Reports(r, [Key("password")], "Password is required")
  {
    var a := Check(!env.isEmail(v.email), "email", "Email is required");
    var b := Check(|v.password| < 1, "password", "Password is required");
    assert !env.isEmail(v.email) ==> (a + b)[0] == a[0];
    assert |v.password| < 1 ==> (a + b)[|a|] == b[0];
    a + b
  }

  /** The optional two-factor code plays no part in login validation. */
  lemma LoginCodeIrrelevant(v: LoginInput, code: Option<string>, env: Env)
    ensures LoginIssues(v.(code := code), env) == LoginIssues(v, env)
  {
  }

  datatype RegisterInput = RegisterInput(email: string, password: string, name: string)

  /** `RegisterSchema`: an email, a password of at least 6 characters and a non-empty name. */
  function RegisterIssues(v: RegisterInput, env: Env): (r: seq<Issue>)
    ensures r == [] <==> env.isEmail(v.email) && |v.password| >= 6 && |v.name| >= 1
    ensures |v.password| < 6 ==> Reports(r, [Key("password")], "Minimum of 6 characters required")
    ensures |v.name| < 1 ==> Reports(r, [Key("name")], "Name is required")
  {
    var a := Check(!env.isEmail(v.email), "email", "Email is required");
    var b := Check(|v.password| < 6, "password", "Minimum of 6 characters required");
    var c := Check(|v.name| < 1, "name", "Name is required");
    assert |v.password| < 6 ==> (a + b + c)[|a|] == b[0];
    assert |v.name| < 1 ==> (a + b + c)[|a| + |b|] == c[0];
    a + b + c
  }

  // ---------------------------------------------------------------------------
  // ImageSchema and the hex colour pattern

  predicate IsHexDigit(c: char) {
    ('0' <= c <= '9') || ('a' <= c <= 'f') || ('A' <= c <= 'F')
  }

  /** `[0-9a-fA-F]{3}` against the whole of `t`. */
  predicate HexTriple(t: string) {
    |t| == 3 && IsHexDigit(t[0]) && IsHexDigit(t[1]) && IsHexDigit(t[2])
  }

  /** `([0-9a-fA-F]{3}){lo,hi}` against the whole of `t`, matched one group at a time. */
  predicate Triples(t: string, lo: nat, hi: nat)
    decreases hi
  {
    (lo == 0 && t == [])
    || (hi > 0 && |t| >= 3 && HexTriple(t[..3]) && Triples(t[3..], if lo > 0 then lo - 1 else 0, hi - 1))
  }

  /** The pattern `^#([0-9a-fA-F]{3}){1,2}$`, following its structure. */
  predicate MatchesHexColor(s: string) {
    |s| >= 1 && s[0] == '#' && Triples(s[1..], 1, 2)
  }

  /** All characters from position 1 on are hex digits. */
  predicate HexTail(s: string) {
    forall i :: 1 <= i < |s| ==> IsHexDigit(s[i])
  }

  /** The pattern accepts exactly "#" followed by 3 or by 6 hex digits, in either case. */
  lemma {:induction false} HexColorShape(s: string)
    ensures MatchesHexColor(s) <==> (|s| == 4 || |s| == 7) && s[0] == '#' && HexTail(s)
  {
    if |s| >= 1 && s[0] == '#' {
      var t := s[1..];
      if |s| == 4 && HexTail(s) {
        assert t[..3] == t && t[3..] == [];
        assert HexTriple(t[..3]) by { assert t[0] == s[1] && t[1] == s[2] && t[2] == s[3]; }
        assert Triples(t[3..], 0, 1);
      } else if |s| == 7 && HexTail(s) {
        var u := t[3..];
        assert HexTriple(t[..3]) by { assert t[0] == s[1] && t[1] == s[2] && t[2] == s[3]; }
        assert u[..3] == u && u[3..] == [];
        assert HexTriple(u[..3]) by { assert u[0] == s[4] && u[1] == s[5] && u[2] == s[6]; }
        assert Triples(u[3..], 0, 0);
        assert Triples(u, 0, 1);
      }
      if Triples(t, 1, 2) {
        assert HexTriple(t[..3]) && Triples(t[3..], 0, 1);
        var u := t[3..];
        forall i | 1 <= i < 4 ensures IsHexDigit(s[i]) {
          assert s[i] == t[..3][i - 1];
        }
        if u == [] {
          assert |s| == 4;
        } else {
          assert HexTriple(u[..3]) && Triples(u[3..], 0, 0);
          assert u[3..] == [];
          forall i | 4 <= i < 7 ensures IsHexDigit(s[i]) {
            assert s[i] == u[..3][i - 4];
          }
          assert |s| == 7;
        }
      }
    }
  }

  /** `ImageSchema` for the image at position `index` of a product's `images`. */
  function ImageIssues(img: ProductImage, index: nat, env: Env): (r: seq<Issue>)
    ensures r == [] <==> |img.color| >= 1 && MatchesHexColor(img.colorCode) && env.isUrl(img.image)
    ensures forall k :: 0 <= k < |r| ==> |r[k].path| == 3 && r[k].path[..2] == [Key("images"), Index(index)]
  {
    var at := [Key("images"), Index(index)];
    (if |img.color| < 1 then [Issue(at + [Key("color")], "Image color is required")] else [])
    + (if !MatchesHexColor(img.colorCode) then [Issue(at + [Key("colorCode")], "Invalid hex color")] else [])
    + (if !env.isUrl(img.image) then [Issue(at + [Key("image")], "Image URL must be a valid URL")] else [])
  }

  /** The element issues of `images`, the first one sitting at position `start`. */
  function ElementIssues(images: seq<ProductImage>, start: nat, env: Env): (r: seq<Issue>)
    ensures r == [] <==> forall i :: 0 <= i < |images| ==> ImageIssues(images[i], start + i, env) == []
    decreases |images|
  {
    if |images| == 0 then []
    else
      var rest := ElementIssues(images[1..], start + 1, env);
      assert forall i :: 1 <= i < |images| ==> images[i] == images[1..][i - 1];
      ImageIssues(images[0], start, env) + rest
  }

  /** Appending an image that is valid at its position keeps a valid list valid. */
  lemma AppendValidImage(images: seq<ProductImage>, img: ProductImage, env: Env)
    requires ElementIssues(images, 0, env) == []
    requires ImageIssues(img, |images|, env) == []
    ensures ElementIssues(images + [img], 0, env) == []
  {
    var l := images + [img];
    forall i | 0 <= i < |l| ensures ImageIssues(l[i], 0 + i, env) == [] {
      if i < |images| {
        assert l[i] == images[i];
      } else {
        assert l[i] == img;
      }
    }
  }

  // ---------------------------------------------------------------------------
  // ProductSchema

  /** A field declared `.optional().nullable()`: undefined, null, or a string. */
  datatype Nullable = Absent | Null | Present(value: string) {
    /** `field ?? ""`. */
    function OrEmpty(): string {
      if Present? then value else ""
    }
  }

  /** The price arrives as a JavaScript number or as text. */
  datatype PriceInput = PriceNumber(n: JsNumber) | PriceText(text: string)

  datatype ProductInput = ProductInput(
    name: string,
    description: Nullable,
    vendor: Nullable,
    price: PriceInput,
    brand: Nullable,
    category: Nullable,
    inStock: Option<bool>,
    images: seq<ProductImage>)

  /** The parsed product: `inStock` now has its default. */
  datatype ProductData = ProductData(
    name: string,
    description: Nullable,
    vendor: Nullable,
    price: PriceInput,
    brand: Nullable,
    category: Nullable,
    inStock: bool,
    images: seq<ProductImage>)

  /** The numeric value of the price: itself for a number, `Number(text)` for text. */
  function PriceNumeric(p: PriceInput, env: Env): JsNumber {
    match p
    case PriceNumber(n) => n
    case PriceText(s) => env.toNumber(s)
  }

  predicate PriceAcceptable(p: PriceInput, env: Env) {
    PriceNumeric(p, env).IsFinite() && PriceNumeric(p, env).value >= 0.0
  }

  const PriceMessage: string := "Price must be a non-negative number"

  /**
   * The price field: NaN is refused by `z.number()` and by `z.string()`, so
   * the union fails before the refinement; any other value is refined.
   */
  function PriceIssues(p: PriceInput, env: Env): (r: seq<Issue>)
    ensures r == [] <==> PriceAcceptable(p, env)
    ensures |r| <= 1
  {
    if p == PriceNumber(NaN) then [Issue([Key("price")], InvalidUnionDefault)]
    else Check(!PriceAcceptable(p, env), "price", PriceMessage)
  }

  const AtLeastOneImage: string := "At least one image is required"
  const AtMostFiveImages: string := "You can upload up to 5 images"

  /** The `images` array: length between 1 and 5, checked before its elements. */
  function ImagesIssues(images: seq<ProductImage>, env: Env): (r: seq<Issue>)
    ensures r == [] <==>
      1 <= |images| <= 5 && forall i :: 0 <= i < |images| ==> ImageIssues(images[i], i, env) == []
    ensures |images| == 0 ==> r == [Issue([Key("images")], AtLeastOneImage)]
    ensures |images| > 5 ==> r[0] == Issue([Key("images")], AtMostFiveImages)
  {
    Check(|images| < 1, "images", AtLeastOneImage)
    + Check(|images| > 5, "images", AtMostFiveImages)
    + ElementIssues(images, 0, env)
  }

  /** Every issue `ProductSchema` reports, in field order. */
  function ProductIssues(v: ProductInput, env: Env): (r: seq<Issue>)
    ensures r == [] <==>
      && |v.name| >= 1
      && PriceAcceptable(v.price, env)
      && 1 <= |v.images| <= 5
      && (forall i :: 0 <= i < |v.images| ==> ImageIssues(v.images[i], i, env) == [])
  {
    Check(|v.name| < 1, "name", "Name is required")
    + PriceIssues(v.price, env)
    + ImagesIssues(v.images, env)
  }

  /** `ProductSchema.safeParse`: the data with `inStock` defaulted, or the issues. */
  function ParseProduct(v: ProductInput, env: Env): (r: Result<ProductData, seq<Issue>>)
    ensures r.Failure? <==> ProductIssues(v, env) != []
    ensures r.Failure? ==> r.error == ProductIssues(v, env)
    ensures r.Success? ==>
      && r.value.inStock == v.inStock.GetOr(true)
      && r.value.name == v.name
      && r.value.images == v.images
      && r.value.price == v.price
      && r.value.description == v.description && r.value.vendor == v.vendor
      && r.value.brand == v.brand && r.value.category == v.category
  {
    var issues := ProductIssues(v, env);
    if issues != [] then Failure(issues)
    else Success(ProductData(v.name, v.description, v.vendor, v.price, v.brand, v.category,
                             v.inStock.GetOr(true), v.images))
  }

  /** An image list of the wrong length is refused whatever else the input holds. */
  lemma ImageCountBounds(v: ProductInput, env: Env)
    requires |v.images| == 0 || |v.images| > 5
    ensures ParseProduct(v, env).Failure?
    ensures |v.images| == 0 ==> Reports(ParseProduct(v, env).error, [Key("images")], AtLeastOneImage)
    ensures |v.images| > 5 ==> Reports(ParseProduct(v, env).error, [Key("images")], AtMostFiveImages)
  {
    var a := Check(|v.name| < 1, "name", "Name is required");
    var b := PriceIssues(v.price, env);
    var c := ImagesIssues(v.images, env);
    assert ProductIssues(v, env) == a + b + c;
    assert (a + b + c)[|a| + |b|] == c[0];
  }

  /** The price is judged by its numeric value alone: the text "19.99" and the number 19.99 fare alike. */
  lemma PriceTextAndNumberAgree(s: string, env: Env)
    requires env.toNumber(s) != NaN
    ensures PriceIssues(PriceText(s), env) == PriceIssues(PriceNumber(env.toNumber(s)), env)
  {
  }
}

=== FILE: strings.dfy ===
/**
 * The JavaScript string operations the decision logic relies on:
 * `startsWith`, ASCII `toLowerCase`, `trim`, `join` and `split`, and the
 * truthiness test that `if (s)` applies to an optional string.
 */
module Strings {
  import opened Wrappers

  /** `s.startsWith(prefix)`. */
  predicate StartsWith(s: string, prefix: string) {
    |prefix| <= |s| && s[..|prefix|] == prefix
  }

  /** JavaScript truthiness of a string that may be undefined or null: `""` is falsy. */
  predicate Truthy(o: Option<string>) {
    o.Some? && o.value != ""
  }

  /** Concatenation keeps the left operand as a prefix. */
  lemma ConcatStartsWith(a: string, b: string)
    ensures StartsWith(a + b, a)
  {
    assert (a + b)[..|a|] == a;
  }

  /** A prefix of a prefix is a prefix. */
  lemma StartsWithTransitive(s: string, p: string, q: string)
    requires StartsWith(s, p) && StartsWith(p, q)
    ensures StartsWith(s, q)
  {
    assert s[..|q|] == s[..|p|][..|q|];
  }

  // ---------------------------------------------------------------------------
  // Case

  predicate IsUpperAscii(c: char) {
    'A' <= c <= 'Z'
  }

  function LowerChar(c: char): (r: char)
    ensures !IsUpperAscii(r)
    ensures IsUpperAscii(c) ==> r as int == c as int + 32
    ensures !IsUpperAscii(c) ==> r == c
  {
    if IsUpperAscii(c) then (c as int + 32) as char else c
  }

  /** `toLowerCase` restricted to the ASCII letters. */
  function ToLower(s: string): (r: string)
    ensures |r| == |s|
    ensures forall i :: 0 <= i < |s| ==> r[i] == LowerChar(s[i])
  {
    seq(|s|, i requires 0 <= i < |s| => LowerChar(s[i]))
  }

  /** Lower-casing twice is lower-casing once. */
  lemma ToLowerIdempotent(s: string)
    ensures ToLower(ToLower(s)) == ToLower(s)
  {
  }

  // ---------------------------------------------------------------------------
  // Whitespace and trim

  /**
   * The characters `String.prototype.trim` removes: the WhiteSpace and
   * LineTerminator productions of section 12.2 and 12.3 of ECMA-262
   * (TAB, VT, FF, SP, NBSP, ZWNBSP, the Zs category, LF, CR, LS, PS).
   */
  predicate IsJsSpace(c: char) {
    var n := c as int;
    n == 0x09 || n == 0x0A || n == 0x0B || n == 0x0C || n == 0x0D || n == 0x20
    || n == 0xA0 || n == 0x1680 || (0x2000 <= n <= 0x200A)
    || n == 0x2028 || n == 0x2029 || n == 0x202F || n == 0x205F
    || n == 0x3000 || n == 0xFEFF
  }

  /** Drops leading whitespace: the result is the suffix of `s` after a run of spaces. */
  function TrimStart(s: string): (r: string)
    ensures |r| <= |s| && r == s[|s| - |r|..]
    ensures forall k :: 0 <= k < |s| - |r| ==> IsJsSpace(s[k])
    ensures r == [] || !IsJsSpace(r[0])
    decreases |s|
  {
    if |s| > 0 && IsJsSpace(s[0]) then TrimStart(s[1..]) else s
  }

  /** Drops trailing whitespace: the result is the prefix of `s` before a run of spaces. */
  function TrimEnd(s: string): (r: string)
    ensures |r| <= |s| && r == s[..|r|]
    ensures forall k :: |r| <= k < |s| ==> IsJsSpace(s[k])
    ensures r == [] || !IsJsSpace(r[|r| - 1])
    decreases |s|
  {
    if |s| > 0 && IsJsSpace(s[|s| - 1]) then TrimEnd(s[..|s| - 1]) else s
  }

  /** `s.trim()`: a contiguous slice of `s` whose ends are not whitespace. */
  function Trim(s: string): (r: string)
    ensures r == [] || (!IsJsSpace(r[0]) && !IsJsSpace(r[|r| - 1]))
    ensures |r| <= |s|
  {
    TrimEnd(TrimStart(s))
  }

  /** A string made only of whitespace trims to the empty string, and only such strings do. */
  lemma {:induction false} TrimEmptyIffAllSpace(s: string)
    ensures Trim(s) == [] <==> forall k :: 0 <= k < |s| ==> IsJsSpace(s[k])
  {
    var t := TrimStart(s);
    assert |t| > 0 ==> t[0] == s[|s| - |t|];
    assert |t| > 0 ==> (forall k :: |TrimEnd(t)| <= k < |t| ==> IsJsSpace(t[k]));
  }

  /** A string with no whitespace at either end is its own trim. */
  lemma TrimNoOp(s: string)
    requires s == [] || (!IsJsSpace(s[0]) && !IsJsSpace(s[|s| - 1]))
    ensures Trim(s) == s
  {
  }

  // ---------------------------------------------------------------------------
  // join / split

  /** `parts.join(sep)`. */
  function Join(parts: seq<string>, sep: string): (r: string)
    ensures |parts| == 0 ==> r == ""
    ensures |parts| > 0 ==> StartsWith(r, parts[0])
    decreases |parts|
  {
    if |parts| == 0 then ""
    else if |parts| == 1 then parts[0]
    else
      ConcatStartsWith(parts[0], sep + Join(parts[1..], sep));
      assert parts[0] + sep + Join(parts[1..], sep) == parts[0] + (sep + Join(parts[1..], sep));
      parts[0] + sep + Join(parts[1..], sep)
  }

  /** Joining a leading part onto a non-empty rest puts one separator between them. */
  lemma JoinCons(p: string, rest: seq<string>, sep: string)
    requires |rest| >= 1
    ensures Join([p] + rest, sep) == p + sep + Join(rest, sep)
  {
    assert ([p] + rest)[1..] == rest;
  }

  /** `s.split(c)` for a one-character separator; `"".split(c)` is `[""]`. */
  function Split(s: string, c: char): (r: seq<string>)
    ensures |r| >= 1
    decreases |s|
  {
    if |s| == 0 then [""]
    else
      var rest := Split(s[1..], c);
      if s[0] == c then [""] + rest
      else [[s[0]] + rest[0]] + rest[1..]
  }

  /** No part contains the separator character. */
  predicate NoneContains(parts: seq<string>, c: char) {
    forall i :: 0 <= i < |parts| ==> c !in parts[i]
  }

  /** A piece without the separator splits to itself followed by whatever follows the separator. */
  lemma {:induction false} SplitPiece(x: string, c: char, tail: seq<string>, y: string)
    requires c !in x
    requires Split(y, c) == tail
    ensures Split(x + y, c) == [x + tail[0]] + tail[1..]
    decreases |x|
  {
    if |x| == 0 {
      assert x + y == y;
      assert x + tail[0] == tail[0];
      assert [tail[0]] + tail[1..] == tail;
    } else {
      assert (x + y)[1..] == x[1..] + y;
      assert x == [x[0]] + x[1..];
      SplitPiece(x[1..], c, tail, y);
      assert (x + y)[0] == x[0];
      assert [x[0]] + (x[1..] + tail[0]) == x + tail[0];
    }
  }

  /** Splitting a join on the same single-character separator gives back the parts. */
  lemma {:induction false} SplitJoin(parts: seq<string>, c: char)
    requires |parts| >= 1
    requires NoneContains(parts, c)
    ensures Split(Join(parts, [c]), c) == parts
    decreases |parts|
  {
    if |parts| == 1 {
      SplitPiece(parts[0], c, [""], "");
      assert parts[0] + "" == parts[0];
    } else {
      var rest := Join(parts[1..], [c]);
      SplitJoin(parts[1..], c);
      var y := [c] + rest;
      assert Split(y, c) == [""] + parts[1..] by {
        assert y[1..] == rest;
      }
      SplitPiece(parts[0], c, [""] + parts[1..], y);
      assert Join(parts, [c]) == parts[0] + y;
      assert parts[0] + "" == parts[0];
      assert ([""] + parts[1..])[1..] == parts[1..];
      assert [parts[0]] + parts[1..] == parts;
    }
  }
}

=== FILE: wrappers.dfy ===
/** Option and Result, the two failure-carrying shapes used throughout the model. */
module Wrappers {

  /** A value that may be absent: JavaScript's `undefined`/`null` for a single field. */
  datatype Option<+T> = None | Some(value: T) {

    /** The value, or a default when absent (JavaScript's `x ?? d`). */
    function GetOr(default: T): T {
      match this
      case Some(v) => v
      case None => default
    }
  }

  /** Either a value or an error, for operations whose failure the caller sees. */
  datatype Result<+R, +E> = Success(value: R) | Failure(error: E)
}
